=== FILE: README.md ===
# AutoBook appointment core in Dafny

AutoBook is an Android app for booking callers into appointments. Its
routines modelled here are these:

- `assignAppointmentSlot` books a caller into the next working day, the next day that is not a Sunday.
  - The day has eight hourly slots, from `8-9am` to `3-4pm`.
  - The caller gets the first slot whose count of distinct booked numbers is below its capacity.
  - That capacity is the slot's row in `slot_configurations` or, if it has none, the stored default capacity.
  - A caller already booked that day keeps the slot, and a caller who finds all eight slots full is put on the `WAITLIST`.
- `generateAppointmentMessage` builds the confirmation text.
- `groupCallsByNumber` groups the stored `call_records` rows by date and, within a date, by phone number for the call history.
- The DAO reads and writes the two tables.
- The schedule screen's view model moves the selected day and reports capacity-change errors.

Where the routines are called from:
- No code in the files this model covers calls `assignAppointmentSlot` or `generateAppointmentMessage`.
- A record is stored through `CallViewModel.saveCall` (`viewModel/CallViewModel.kt:29-33`), and nothing in those files calls that.
- The telephony service that does exist, `service/MyInCallService.kt`, answers every incoming call (lines 14-24) and hangs up three seconds after it connects (lines 37-40). When a call ends it sends a fixed text (line 58) without booking or storing anything. It is not modelled.

This project models that core and proves its properties:

| file | module | models |
|---|---|---|
| `options.dfy` | `Options` | the optional value behind Kotlin's nullable types |
| `decimal.dfy` | `Decimal` | decimal digit strings and their values |
| `kotlin_int.dfy` | `KotlinInt` | 32-bit `Int` wrap-around, `abs`, `%`, `String.hashCode`, `toIntOrNull` |
| `days.dfy` | `Days` | timestamps, day indices, weekdays, date strings, day names |
| `seqs.dfy` | `Seqs` | filter, stable descending sort, `distinct`, sums and group sizes over lists |
| `records.dfy` | `Records` | `CallRecord`, `GroupedCall`, `AppointmentSlot`, `SlotConfiguration` |
| `call_dao.dfy` | `CallDao` | the two Room tables and every DAO statement |
| `settings.dfy` | `Settings` | `SettingsManager`, the stored default capacity |
| `booking.dfy` | `Booking` | `getNextWorkingDay`, `assignAppointmentSlot`, `generateAppointmentMessage` |
| `call_history.dfy` | `CallHistory` | `groupCallsByNumber` |
| `avatar.dfy` | `Avatars` | `getAvatarIcon` |
| `capacity_input.dfy` | `CapacityInput` | the Save check of the capacity dialog |
| `call_view_model.dfy` | `ViewModel` | `CallViewModel`'s day navigation, capacity errors and slot selection |

Stateful code is modelled as classes. `CallDao.CallTable` holds both
tables. `Settings.SettingsManager` holds the optional stored preference.
`ViewModel.CallViewModel` holds the selected day and the error. The two
step-by-step functions, `getNextWorkingDay` and `assignAppointmentSlot`,
are methods, and `assignAppointmentSlot` keeps its `for` loop with early
returns. Each method is proved against a specification function: the
working-day rule `NextWorkingDay` or the first-fit answer `AssignedSlot`.
Lemmas then prove what those functions mean.

Calendar and formatting are abstracted:

- A timestamp is a number of milliseconds.
- Its day is `timestamp / 86_400_000`, in a zone without daylight saving.
- Day 0 is Thursday, 1 January 1970. Weekdays use `java.util.Calendar`'s numbering, Sunday = 1.
- The `"dd MMM yyyy"` date string is any injective rendering of the day. The model uses the day index's digits.
- The `"EEEE"` day name is the English weekday name.

## Model

Paths are relative to the repository root. `MainActivity.kt`,
`CallViewModel.kt` and the `data/` files live under
`app/src/main/java/com/example/appointmentmanager/`.

| member | source | states |
|---|---|---|
| Records.NewCallRecord | app/src/main/java/com/example/appointmentmanager/data/CallRecord.kt:7-14 | a record built from the required fields has id 0 and no appointment date or slot |
| Records.NewAppointmentSlot | app/src/main/java/com/example/appointmentmanager/data/CallRecord.kt:26-33 | occupancy is the number of listed numbers, capacity defaults to 5, `isEmpty` iff no numbers, `isFull` iff the numbers reach the capacity |
| Records.FullAndEmpty | app/src/main/java/com/example/appointmentmanager/data/CallRecord.kt:32-33 | a slot is both full and empty only when it is empty with capacity at most 0 |
| Records.AppointmentSlot.IsFull | app/src/main/java/com/example/appointmentmanager/data/CallRecord.kt:32 | a slot with room is never full; a slot without capacity always is |
| Records.AppointmentSlot.IsEmpty | app/src/main/java/com/example/appointmentmanager/data/CallRecord.kt:33 | an empty slot with capacity at least 1 is not full |
| CallDao.SelectAllCalls | app/src/main/java/com/example/appointmentmanager/data/CallDao.kt:15-19 | every row exactly once, newest first |
| CallDao.SelectAppointmentsForDate | app/src/main/java/com/example/appointmentmanager/data/CallDao.kt:21-22 | exactly the rows booked on the date, with their multiplicities, newest first; a NULL date never matches |
| CallDao.DeleteCallRows | app/src/main/java/com/example/appointmentmanager/data/CallDao.kt:27-28 | the rows left are those with another id, each kept as often as before |
| CallDao.DeleteCallRemovesOneRow | app/src/main/java/com/example/appointmentmanager/data/CallDao.kt:27-28 | with distinct ids, deleting an id that is present removes exactly one row |
| CallDao.DeleteBookingRows | app/src/main/java/com/example/appointmentmanager/data/CallDao.kt:24-25 | exactly the caller's rows on that date go; other callers' rows and rows with no date stay |
| CallDao.DeleteConfigRows | app/src/main/java/com/example/appointmentmanager/data/CallDao.kt:46-48 | exactly the rows of other slots remain |
| CallDao.UpsertConfigRows | app/src/main/java/com/example/appointmentmanager/data/CallDao.kt:42-44 | the new row replaces the slot's old row; other slots' rows stay |
| CallDao.FindConfig | app/src/main/java/com/example/appointmentmanager/MainActivity.kt:1347-1349 | a found row is stored, has the slot's label, and no earlier row has that label; nothing is found iff no row has that label |
| CallDao.FindConfigUnique | app/src/main/java/com/example/appointmentmanager/data/CallDao.kt:35-36 | with the label as primary key, the lookup returns the slot's one row |
| CallDao.UpsertThenFind | app/src/main/java/com/example/appointmentmanager/data/CallDao.kt:42-44 | after an upsert the slot's row is the new one; every other slot's row is unchanged |
| CallDao.DeleteThenFind | app/src/main/java/com/example/appointmentmanager/data/CallDao.kt:46-48 | after a delete the slot has no row and falls back to the default; other slots are unchanged |
| CallDao.StoredRow | app/src/main/java/com/example/appointmentmanager/data/CallRecord.kt:8 | a record with an explicit id is stored as it is; id 0 is replaced by the id after the largest used so far |
| CallDao.CallTable.constructor | app/src/main/java/com/example/appointmentmanager/data/CallDao.kt:10-11 | both tables start empty and the table invariant holds |
| CallDao.CallTable.InsertCall | app/src/main/java/com/example/appointmentmanager/data/CallDao.kt:12-13 | appends the stored row unless an explicit id is already present, which aborts with nothing changed; the sequence moves to the larger of its old value and the new id, so it never goes down and a later generated id is never one used before |
| CallDao.CallTable.DeleteCall | app/src/main/java/com/example/appointmentmanager/data/CallDao.kt:27-28 | the calls become `DeleteCallRows` of the old calls; the invariant is kept |
| CallDao.CallTable.DeleteByPhoneNumberAndDate | app/src/main/java/com/example/appointmentmanager/data/CallDao.kt:24-25 | the calls become `DeleteBookingRows` of the old calls; configurations untouched |
| CallDao.CallTable.GetAllCalls | app/src/main/java/com/example/appointmentmanager/data/CallDao.kt:15-19 | returns `SelectAllCalls` of the stored rows |
| CallDao.CallTable.GetAppointmentsForDate | app/src/main/java/com/example/appointmentmanager/data/CallDao.kt:21-22 | returns `SelectAppointmentsForDate` of the stored rows |
| CallDao.CallTable.UpsertSlotConfiguration | app/src/main/java/com/example/appointmentmanager/data/CallDao.kt:42-44 | configurations become `UpsertConfigRows`; labels stay distinct |
| CallDao.CallTable.DeleteSlotConfiguration | app/src/main/java/com/example/appointmentmanager/data/CallDao.kt:46-48 | configurations become `DeleteConfigRows`; labels stay distinct |
| CallDao.CallTable.GetSlotConfiguration | app/src/main/java/com/example/appointmentmanager/data/CallDao.kt:35-36 | returns the slot's row, if any |
| CallDao.CallTable.GetAllSlotConfigurations | app/src/main/java/com/example/appointmentmanager/data/CallDao.kt:38-40 | returns every configuration row |
| Settings.AfterSet | app/src/main/java/com/example/appointmentmanager/data/SettingsManager.kt:43-56 | a write succeeds iff the capacity is in [1, 20]; it then reads back; a refused write changes nothing |
| Settings.ReplayStaysInRange | app/src/main/java/com/example/appointmentmanager/data/SettingsManager.kt:26-63 | after any sequence of sets and resets a read returns a capacity in [1, 20] |
| Settings.ResetIdempotent | app/src/main/java/com/example/appointmentmanager/data/SettingsManager.kt:59-63 | a second reset changes nothing; after a reset a read gives 2 |
| Settings.SetThenGet | app/src/main/java/com/example/appointmentmanager/data/SettingsManager.kt:38-56 | a set in range is what the next read returns; a set out of range leaves the store as it was |
| Settings.SettingsManager.constructor | app/src/main/java/com/example/appointmentmanager/data/SettingsManager.kt:15-19 | the manager sees whatever the store already holds |
| Settings.SettingsManager.GetDefaultCapacity | app/src/main/java/com/example/appointmentmanager/data/SettingsManager.kt:33-40 | the stored value, else 2; in [1, 20] whenever the store holds only values the app wrote |
| Settings.SettingsManager.SetDefaultCapacity | app/src/main/java/com/example/appointmentmanager/data/SettingsManager.kt:43-56 | returns true iff 1 <= capacity <= 20 and then stores it; otherwise the store is untouched |
| Settings.SettingsManager.ResetDefaultCapacity | app/src/main/java/com/example/appointmentmanager/data/SettingsManager.kt:59-63 | the stored value is removed |
| KotlinInt.Abs | app/src/main/java/com/example/appointmentmanager/MainActivity.kt:505 | `abs` is the magnitude for every other `Int`, and `abs(Int.MIN_VALUE)` is `Int.MIN_VALUE` itself |
| KotlinInt.Rem | app/src/main/java/com/example/appointmentmanager/MainActivity.kt:505 | `%` takes the sign of the dividend, has magnitude below the divisor, and differs from the dividend by a multiple of the divisor |
| KotlinInt.HashCode | app/src/main/java/com/example/appointmentmanager/MainActivity.kt:504 | the 32-bit hash is congruent modulo 2^32 to the documented polynomial `s[0]*31^(n-1) + ... + s[n-1]` |
| KotlinInt.HashFromPolynomial | app/src/main/java/com/example/appointmentmanager/MainActivity.kt:504 | the wrapped fold `h = 31*h + c` from 0 agrees with the polynomial modulo 2^32 |
| KotlinInt.ToIntOrNull | app/src/main/java/com/example/appointmentmanager/MainActivity.kt:1064 | text parses exactly when it is an optional sign and one or more digits whose signed value fits an `Int`, and then to that value |
| KotlinInt.ParseRendering | app/src/main/java/com/example/appointmentmanager/MainActivity.kt:1064 | a typed number parses to itself iff it fits an `Int` |
| KotlinInt.ParseNegativeRendering | app/src/main/java/com/example/appointmentmanager/MainActivity.kt:1064 | a typed number with a minus sign parses to its negation iff that fits an `Int` |
| KotlinInt.RejectsMalformed | app/src/main/java/com/example/appointmentmanager/MainActivity.kt:1064 | empty text, a bare sign, a trailing letter and a leading blank parse to null; an explicit `+` is accepted |
| Days.NextCalendarDay | app/src/main/java/com/example/appointmentmanager/MainActivity.kt:1288 | adding one day moves to the next day index and keeps the time of day |
| Days.PreviousCalendarDay | app/src/main/java/com/example/appointmentmanager/viewModel/CallViewModel.kt:103 | subtracting one day moves to the previous day index and keeps the time of day |
| Days.DayOfWeek | app/src/main/java/com/example/appointmentmanager/MainActivity.kt:1290 | the weekday is between Sunday (1) and Saturday (7) |
| Days.WeekdayAdvances | app/src/main/java/com/example/appointmentmanager/MainActivity.kt:1288-1290 | the next day's weekday is one more, Saturday wrapping to Sunday |
| Days.FormatDayInjective | app/src/main/java/com/example/appointmentmanager/MainActivity.kt:1295-1296 | different days never share a date string |
| Days.SameDateIffSameDay | app/src/main/java/com/example/appointmentmanager/MainActivity.kt:1206-1209 | two timestamps share a date string iff they fall on the same day |
| Days.FormatDate | app/src/main/java/com/example/appointmentmanager/MainActivity.kt:1206-1209 | the date string reads back to the timestamp's day |
| Days.DayName | app/src/main/java/com/example/appointmentmanager/MainActivity.kt:1371-1372 | the name is a weekday name, and it is "Sunday" iff the day is a Sunday |
| Days.DayNameIdentifiesWeekday | app/src/main/java/com/example/appointmentmanager/MainActivity.kt:1371-1372 | two timestamps get the same day name exactly when they fall on the same weekday |
| Booking.NextWorkingDay | app/src/main/java/com/example/appointmentmanager/MainActivity.kt:1284-1300 | the working day is one or two days later, never a Sunday, and every skipped day is a Sunday |
| Booking.GetNextWorkingDay | app/src/main/java/com/example/appointmentmanager/MainActivity.kt:1284-1300 | the result falls on `NextWorkingDay` of the call's day at the same time of day; the string is its date |
| Booking.WorkingDayAfter | app/src/main/java/com/example/appointmentmanager/MainActivity.kt:1284-1300 | a Saturday call is booked for the Monday after, any other call for the next day |
| Booking.FirstBooking | app/src/main/java/com/example/appointmentmanager/MainActivity.kt:1315-1317 | the position of the first record of the caller on that date; no earlier record matches |
| Booking.ExistingSlot | app/src/main/java/com/example/appointmentmanager/MainActivity.kt:1315-1317 | the slot of the caller's first record on that date, even when that record has no slot; none when the caller has no record that date |
| Booking.SlotCount | app/src/main/java/com/example/appointmentmanager/MainActivity.kt:1337-1344 | the count is zero exactly when no record is booked in that slot on that date |
| Booking.SlotCapacity | app/src/main/java/com/example/appointmentmanager/MainActivity.kt:1347-1349 | the capacity of the first configuration with the slot's label, or the default when there is none |
| Booking.ConfiguredCapacity | app/src/main/java/com/example/appointmentmanager/MainActivity.kt:1347-1349 | with the label as primary key, a configured slot has its configuration's capacity |
| Booking.FirstFit | app/src/main/java/com/example/appointmentmanager/MainActivity.kt:1335-1357 | the first slot with room from a position on; every slot passed over is full |
| Booking.AssignAppointmentSlot | app/src/main/java/com/example/appointmentmanager/MainActivity.kt:1302-1362 | answers the next working day's date and `AssignedSlot` for it |
| Booking.AssignedSlot | app/src/main/java/com/example/appointmentmanager/MainActivity.kt:1314-1361 | an existing slot is kept; otherwise the answer is one of the eight slots or `WAITLIST` |
| Booking.AssignedSlotMeaning | app/src/main/java/com/example/appointmentmanager/MainActivity.kt:1314-1361 | an existing slot is kept; otherwise the first slot with room, all earlier full; `WAITLIST` iff all eight are full |
| Booking.ExistingBookingIsNewest | app/src/main/java/com/example/appointmentmanager/MainActivity.kt:1312-1317 | with the records read newest first, the record that decides an existing booking is the caller's newest one that date |
| Booking.RepeatCallerKeepsSlot | app/src/main/java/com/example/appointmentmanager/MainActivity.kt:1315-1322 | a caller whose newest record holds a slot on that date is given that slot again |
| Booking.AssignmentRespectsCapacity | app/src/main/java/com/example/appointmentmanager/MainActivity.kt:1337-1354 | recording a fresh assignment never takes a slot's distinct-number count over its capacity |
| Booking.BookingMessageNamesWorkingDay | app/src/main/java/com/example/appointmentmanager/MainActivity.kt:1365-1378 | the confirmation names the weekday of the next working day after the call, never Sunday, then the slot, and ignores the date string |
| Booking.AppointmentMessage | app/src/main/java/com/example/appointmentmanager/MainActivity.kt:1365-1378 | the text is the fixed prefix, the name of the appointment timestamp's weekday (which is "Sunday" iff that day is a Sunday), then " at " and the slot |
| CallHistory.MaxTimestampIsMax | app/src/main/java/com/example/appointmentmanager/MainActivity.kt:1222 | `maxOf` is at least every timestamp and is one of them |
| CallHistory.Summarize | app/src/main/java/com/example/appointmentmanager/MainActivity.kt:1219-1225 | the summary carries the group's number, its number of calls, and the id of the group's first (newest) call |
| CallHistory.GroupsOfDay | app/src/main/java/com/example/appointmentmanager/MainActivity.kt:1216-1227 | one summary per calling number, ordered by latest call, newest first |
| CallHistory.GroupCalls | app/src/main/java/com/example/appointmentmanager/MainActivity.kt:1211-1229 | every date's list of summaries is non-empty and newest first |
| CallHistory.GroupCallsByNumber | app/src/main/java/com/example/appointmentmanager/MainActivity.kt:1211-1229 | as written: the dates are exactly those with calls, each with a non-empty newest-first list |
| CallHistory.GroupCallsByNumberIntended | app/src/main/java/com/example/appointmentmanager/MainActivity.kt:1211-1229 | with the documented SMS flag: the same dates and newest-first lists |
| CallHistory.SameDayGroup | app/src/main/java/com/example/appointmentmanager/MainActivity.kt:1214 | two calls share a date group exactly when they were made on the same day |
| CallHistory.SummarizeAll | app/src/main/java/com/example/appointmentmanager/MainActivity.kt:1216-1225 | one summary per listed number, in the numbers' order |
| CallHistory.PhonesOf | app/src/main/java/com/example/appointmentmanager/MainActivity.kt:1217 | every number that called that date, once each, and only those |
| CallHistory.GroupDates | app/src/main/java/com/example/appointmentmanager/MainActivity.kt:1211-1214 | the grouping has a date iff some call happened on it |
| CallHistory.EveryCallerListed | app/src/main/java/com/example/appointmentmanager/MainActivity.kt:1215-1225 | every call's number has a summary under the call's date |
| CallHistory.OneGroupPerNumber | app/src/main/java/com/example/appointmentmanager/MainActivity.kt:1216-1217 | within a date no number has two summaries |
| CallHistory.GroupOf | app/src/main/java/com/example/appointmentmanager/MainActivity.kt:1211-1227 | every summary summarises exactly that number's calls of that date, newest first |
| CallHistory.CallCountCountsCalls | app/src/main/java/com/example/appointmentmanager/MainActivity.kt:1221 | `callCount` is the number of that number's calls on that date |
| CallHistory.LatestCallSummarized | app/src/main/java/com/example/appointmentmanager/MainActivity.kt:1222-1224 | `lastCallTime` is the latest call time; `firstCallId` is the id of a call made then |
| CallHistory.CountsAddUpToCalls | app/src/main/java/com/example/appointmentmanager/MainActivity.kt:1211-1227 | summed over all dates, the call counts equal the number of calls: each call is counted once |
| CallHistory.SmsFlagOfOldestCall | app/src/main/java/com/example/appointmentmanager/MainActivity.kt:1223 | as written, `smsSent` is the flag of the number's oldest call that date |
| CallHistory.SmsFlagCounterexample | app/src/main/java/com/example/appointmentmanager/MainActivity.kt:1223 | an older call without SMS and a newer call with one are summarised as "no SMS" |
| CallHistory.IntendedSmsFlagOfNewestCall | app/src/main/java/com/example/appointmentmanager/data/CallRecord.kt:19-20 | with the documented rule, `smsSent` is the flag of the call at `lastCallTime` with id `firstCallId` |
| CallHistory.IntendedSmsFlagExample | app/src/main/java/com/example/appointmentmanager/data/CallRecord.kt:20 | with the documented rule, the same two calls are summarised as "SMS sent" |
| Avatars.AvatarIndex | app/src/main/java/com/example/appointmentmanager/MainActivity.kt:504-505 | the index lies strictly between -9 and 9 |
| Avatars.GetAvatarIcon | app/src/main/java/com/example/appointmentmanager/MainActivity.kt:491-507 | as written: the lookup fails iff the index is negative, and otherwise picks avatar index+1 of nine |
| Avatars.AvatarFailsOnlyAtMinHash | app/src/main/java/com/example/appointmentmanager/MainActivity.kt:491-506 | the lookup fails iff the hash is `Int.MIN_VALUE`; otherwise one of the nine avatars is chosen |
| Avatars.AvatarCounterexample | app/src/main/java/com/example/appointmentmanager/MainActivity.kt:504-506 | "+11565901045" hashes to `Int.MIN_VALUE`, so its lookup fails |
| Avatars.AvatarIndexIntended | app/src/main/java/com/example/appointmentmanager/MainActivity.kt:505 | `abs(hash % 9)` always lies in [0, 9) |
| Avatars.GetAvatarIconIntended | app/src/main/java/com/example/appointmentmanager/MainActivity.kt:491-506 | the corrected lookup always picks one of the nine avatars |
| Avatars.IntendedAvatarAgrees | app/src/main/java/com/example/appointmentmanager/MainActivity.kt:491-506 | wherever the app picks an avatar, the corrected lookup picks the same one |
| CapacityInput.AcceptedCapacity | app/src/main/java/com/example/appointmentmanager/MainActivity.kt:1063-1067 | Save passes on exactly the positive parsed values |
| CapacityInput.AcceptsTypedPositive | app/src/main/java/com/example/appointmentmanager/MainActivity.kt:1063-1067 | a typed number from 1 to `Int.MAX_VALUE` is accepted as itself; a larger one is refused |
| CapacityInput.RejectsNonPositive | app/src/main/java/com/example/appointmentmanager/MainActivity.kt:1063-1067 | empty text, zero and negative numbers are refused |
| ViewModel.ErrorAfter | app/src/main/java/com/example/appointmentmanager/viewModel/CallViewModel.kt:149-154 | the error is the failure's message, and nothing after a success |
| ViewModel.CallViewModel.constructor | app/src/main/java/com/example/appointmentmanager/viewModel/CallViewModel.kt:55-57 | a new view model selects the next working day after now, with no error |
| ViewModel.CallViewModel.GoToTomorrow | app/src/main/java/com/example/appointmentmanager/viewModel/CallViewModel.kt:72-76 | selects `NextWorkingDay` of now at the same time of day; date and timestamp agree |
| ViewModel.CallViewModel.GoToToday | app/src/main/java/com/example/appointmentmanager/viewModel/CallViewModel.kt:78-85 | selects now; date and timestamp agree |
| ViewModel.CallViewModel.NextDay | app/src/main/java/com/example/appointmentmanager/viewModel/CallViewModel.kt:87-97 | moves exactly one calendar day later, Sundays included; date and timestamp agree |
| ViewModel.CallViewModel.PreviousDay | app/src/main/java/com/example/appointmentmanager/viewModel/CallViewModel.kt:100-110 | moves exactly one calendar day earlier, undoing `NextDay`; date and timestamp agree |
| ViewModel.CallViewModel.UpdateSlotCapacity | app/src/main/java/com/example/appointmentmanager/viewModel/CallViewModel.kt:141-156 | sends the change for the selected date; the error becomes the failure message or nothing |
| ViewModel.CallViewModel.ResetSlotCapacity | app/src/main/java/com/example/appointmentmanager/viewModel/CallViewModel.kt:159-179 | validates capacity 2 for the selected date; resets iff validation succeeds; otherwise sets the error |
| ViewModel.CallViewModel.ClearCapacityError | app/src/main/java/com/example/appointmentmanager/viewModel/CallViewModel.kt:186-188 | the error is cleared; the selected day is unchanged |
| ViewModel.CallViewModel.AppointmentSlots | app/src/main/java/com/example/appointmentmanager/viewModel/CallViewModel.kt:61-70 | no slots while no date is selected, else the repository's slots; a constructed view model always has a date |

## Left out

- The Compose UI is not modelled: screens, dialogs, theming, previews, the permission flow and the sample records.
- `MyInCallService`, `CallReceiver` and `ContactUtils` are not modelled. They are telephony, SMS, content-provider and contacts I/O.
- `AppDatabase` is not modelled. It is a Room builder singleton guarded by a lock.
- `CallRepository` is delegation. Its results are inputs to the model: the records and configurations `assignAppointmentSlot` reads, the default capacity, the outcomes of `updateSlotCapacity` and `validateCapacityChange`, and the slots `getAppointmentSlotsFlow` emits. `CallViewModel`'s `saveCall`, `deleteCall`, `deleteAppointment`, `getSlotCapacity` and `getAllSlotConfigurations` only forward to it and are not modelled.
- `SlotConfiguration`'s class file is not part of this model. It is assumed to have the key `slotTime` and the field `capacity`.
- `AppointmentSlot.percentage` and the progress colours are not modelled. They are floating point.
- Coroutines, `Flow`, `flatMapLatest` and `StateFlow` are modelled as sequential calls. Interleavings are left out.
- The `"dd MMM yyyy"` and `"EEEE"` patterns, the locale and the time zone are abstracted. Days are day indices in a zone without daylight saving. Date strings are an injective rendering of the day, and day names are English.
- Time stamps are unbounded integers. Overflow of Kotlin's 64-bit `Long` is left out.
- The DataStore write failure in `setDefaultCapacity` is not modelled: a write in range always succeeds.
- SQL order among rows with equal timestamps is unspecified. The model uses a stable sort, and every property proved holds for any descending order.
- `groupCallsByNumber` returns a map ordered by first appearance. The model uses a Dafny `map`, so the order of the date keys is left out.
- `String.hashCode` is modelled over the characters' code points. Characters outside the Basic Multilingual Plane, which Kotlin hashes as two UTF-16 units, are left out.
- KotlinInt.ToIntOrNull: accepts only the ASCII digits `0`-`9`. Kotlin also accepts other Unicode decimal digits.
- Logging (`Log.d`, `Log.w`) is not modelled.

## Findings

| source | as written | input that shows it | evidently intended | confidence | as-written member | corrected member |
|---|---|---|---|---|---|---|
| app/src/main/java/com/example/appointmentmanager/MainActivity.kt:504-506 | `abs(hash) % avatars.size` is negative when the hash is `Int.MIN_VALUE`, because `abs` overflows, so `avatars[index]` throws | phone number "+11565901045", whose `hashCode` is -2147483648; the index is -2 | a valid index for every number, e.g. `abs(hash % avatars.size)` | not executed | Avatars.AvatarCounterexample | Avatars.GetAvatarIconIntended |
| app/src/main/java/com/example/appointmentmanager/MainActivity.kt:1223 | `smsSent` is taken from `callsFromNumber.last()`, and the list is newest first, so this is the oldest call; the field's comment at CallRecord.kt:20 says it is the most recent call's status | two calls from one number on one day: the older without SMS, the newer with one; the summary says no SMS | `callsFromNumber.first().smsSent`, the call at `lastCallTime` | not executed | CallHistory.SmsFlagCounterexample | CallHistory.IntendedSmsFlagOfNewestCall |

=== FILE: avatar.dfy ===
/**
 * The avatar shown next to a caller: one of nine pictures, chosen by the
 * phone number's `String.hashCode`.
 */
module Avatars {
  import opened Options
  import opened KotlinInt

  /** The app ships the pictures `avatar_1` … `avatar_9`. */
  const AvatarCount: int := 9

  /** The list index `abs(hash) % 9`, computed with Kotlin's 32-bit `abs` and `%`. */
  function AvatarIndex(phoneNumber: string): (i: int)
    ensures -AvatarCount < i < AvatarCount
  {
    Rem(Abs(HashCode(phoneNumber)), AvatarCount)
  }

  /**
   * `getAvatarIcon` as written: `Some(k)` for the picture `avatar_k`, and
   * `None` where the list lookup throws because the index is negative.
   */
  function GetAvatarIcon(phoneNumber: string): (k: Option<int>)
    ensures k.None? <==> AvatarIndex(phoneNumber) < 0
    ensures k.Some? ==> 1 <= k.value <= AvatarCount && k.value == AvatarIndex(phoneNumber) + 1
  {
    var i := AvatarIndex(phoneNumber);
    if 0 <= i then Some(i + 1) else None
  }

  /** The lookup fails for exactly the numbers whose hash is `Int.MIN_VALUE`; otherwise a picture 1..9 is chosen. */
  lemma AvatarFailsOnlyAtMinHash(phoneNumber: string)
    ensures GetAvatarIcon(phoneNumber).None? <==> HashCode(phoneNumber) == IntMin
    ensures GetAvatarIcon(phoneNumber).Some? ==> 1 <= GetAvatarIcon(phoneNumber).value <= AvatarCount
  {
    var h := HashCode(phoneNumber);
    if h == IntMin {
      assert Abs(h) == IntMin;
      assert Rem(IntMin, AvatarCount) == -2;
    }
  }

  /** One step of the hash: the character at position `k` is folded in. */
  lemma HashStep(h: int, s: string, k: nat, next: int)
    requires IsInt(h) && k < |s|
    requires next == Wrap(31 * h + s[k] as int)
    ensures IsInt(next)
    ensures HashFrom(h, s[k..]) == HashFrom(next, s[k + 1..])
  {
    assert s[k..][1..] == s[k + 1..];
  }

  /** The number +11565901045, character by character. */
  predicate IsMinHashNumber(s: string) {
    && |s| == 12
    && s[0] == '+' && s[1] == '1' && s[2] == '1' && s[3] == '5'
    && s[4] == '6' && s[5] == '5' && s[6] == '9' && s[7] == '0'
    && s[8] == '1' && s[9] == '0' && s[10] == '4' && s[11] == '5'
  }

  /** Its first four characters fold to 1329674. */
  lemma MinHashFirstPart(s: string)
    requires IsMinHashNumber(s)
    ensures HashFrom(0, s) == HashFrom(1329674, s[4..])
  {
    HashStep(0, s, 0, 43);
    HashStep(43, s, 1, 1382);
    HashStep(1382, s, 2, 42891);
    HashStep(42891, s, 3, 1329674);
  }

  /** The next four take 1329674 to -377123040. */
  lemma MinHashSecondPart(s: string)
    requires IsMinHashNumber(s)
    ensures HashFrom(1329674, s[4..]) == HashFrom(-377123040, s[8..])
  {
    HashStep(1329674, s, 4, 41219948);
    HashStep(41219948, s, 5, 1277818441);
    HashStep(1277818441, s, 6, 957666064);
    HashStep(957666064, s, 7, -377123040);
  }

  /** The last four take -377123040 to `Int.MIN_VALUE`. */
  lemma MinHashThirdPart(s: string)
    requires IsMinHashNumber(s)
    ensures HashFrom(-377123040, s[8..]) == IntMin
  {
    HashStep(-377123040, s, 8, 1194087697);
    HashStep(1194087697, s, 9, -1637987009);
    HashStep(-1637987009, s, 10, 762010325);
    HashStep(762010325, s, 11, -2147483648);
    assert s[12..] == [];
  }

  /**
   * The phone number +11565901045: its `hashCode` is `Int.MIN_VALUE`, so
   * its avatar lookup throws.
   */
  lemma AvatarCounterexample(phoneNumber: string)
    requires |phoneNumber| == 12
    requires phoneNumber[0] == '+' && phoneNumber[1] == '1' && phoneNumber[2] == '1' && phoneNumber[3] == '5'
    requires phoneNumber[4] == '6' && phoneNumber[5] == '5' && phoneNumber[6] == '9' && phoneNumber[7] == '0'
    requires phoneNumber[8] == '1' && phoneNumber[9] == '0' && phoneNumber[10] == '4' && phoneNumber[11] == '5'
    ensures HashCode(phoneNumber) == IntMin
    ensures GetAvatarIcon(phoneNumber) == None
  {
    MinHashFirstPart(phoneNumber);
    MinHashSecondPart(phoneNumber);
    MinHashThirdPart(phoneNumber);
    AvatarFailsOnlyAtMinHash(phoneNumber);
  }

  /** The index as intended, `abs(hash % 9)`: the remainder is taken first, so its magnitude never overflows. */
  function AvatarIndexIntended(phoneNumber: string): (i: int)
    ensures 0 <= i < AvatarCount
  {
    Abs(Rem(HashCode(phoneNumber), AvatarCount))
  }

  /** `getAvatarIcon` with the intended index: always one of the nine pictures. */
  function GetAvatarIconIntended(phoneNumber: string): (k: int)
    ensures 1 <= k <= AvatarCount
  {
    AvatarIndexIntended(phoneNumber) + 1
  }

  /** Wherever the app as written picks a picture, the intended index picks the same one. */
  lemma IntendedAvatarAgrees(phoneNumber: string)
    ensures HashCode(phoneNumber) != IntMin ==> GetAvatarIcon(phoneNumber) == Some(GetAvatarIconIntended(phoneNumber))
  {
    AvatarFailsOnlyAtMinHash(phoneNumber);
  }
}

=== FILE: booking.dfy ===
/**
 * Booking a caller into the next working day's schedule: the working-day
 * rule, first-fit assignment over the eight hourly slots with per-slot
 * capacities and the default capacity as fallback, and the confirmation text.
 */
module Booking {
  import opened Options
  import opened Records
  import opened Days
  import opened Seqs
  import CallDao

  const AvailableSlots: seq<string> :=
    ["8-9am", "9-10am", "10-11am", "11-12pm", "12-1pm", "1-2pm", "2-3pm", "3-4pm"]

  const Waitlist: string := "WAITLIST"

  /** The appointment day for a call made on `day`: the first day after it that is not a Sunday. */
  function NextWorkingDay(day: int): (w: int)
    ensures day < w <= day + 2
    ensures !IsSunday(w)
    ensures forall d :: day < d < w ==> IsSunday(d)
  {
    if IsSunday(day + 1) then day + 2 else day + 1
  }

  /** A call on a Saturday is booked for the Monday after; a call on any other day, for the next day. */
  lemma WorkingDayAfter(day: int)
    ensures DayOfWeek(day) == Saturday ==> NextWorkingDay(day) == day + 2 && DayOfWeek(NextWorkingDay(day)) == Monday
    ensures DayOfWeek(day) != Saturday ==> NextWorkingDay(day) == day + 1
  {
    WeekdayAdvances(day);
    WeekdayAdvances(day + 1);
  }

  /**
   * `getNextWorkingDay`: moves a calendar one day on, and one more when it
   * lands on a Sunday. The time of day is kept; the date string is that
   * day's.
   */
  method GetNextWorkingDay(currentTimestamp: int) returns (timestamp: int, date: string)
    ensures DayOf(timestamp) == NextWorkingDay(DayOf(currentTimestamp))
    ensures timestamp % MillisPerDay == currentTimestamp % MillisPerDay
    ensures date == FormatDate(timestamp)
  {
    timestamp := currentTimestamp;
    NextCalendarDay(timestamp);
    timestamp := timestamp + MillisPerDay;
    if DayOfWeek(DayOf(timestamp)) == Sunday {
      NextCalendarDay(timestamp);
      timestamp := timestamp + MillisPerDay;
    }
    date := FormatDate(timestamp);
  }

  predicate BookedOn(c: CallRecord, phoneNumber: string, date: string) {
    c.phoneNumber == phoneNumber && c.appointmentDate == Some(date)
  }

  /** `firstOrNull { ... }`: the position of the first record of the caller on `date`, or |records|. */
  function FirstBooking(records: seq<CallRecord>, phoneNumber: string, date: string): (i: nat)
    ensures i <= |records|
    ensures i < |records| ==> BookedOn(records[i], phoneNumber, date)
    ensures forall j :: 0 <= j < i ==> !BookedOn(records[j], phoneNumber, date)
  {
    if records == [] then 0
    else if BookedOn(records[0], phoneNumber, date) then 0
    else 1 + FirstBooking(records[1..], phoneNumber, date)
  }

  /** `?.appointmentSlot`: the slot of the caller's first record on `date`, when it has one. */
  function ExistingSlot(records: seq<CallRecord>, phoneNumber: string, date: string): (r: Option<string>)
    ensures (forall c :: c in records ==> !BookedOn(c, phoneNumber, date)) ==> r == None
    ensures r.Some? ==> exists c :: c in records && BookedOn(c, phoneNumber, date) && c.appointmentSlot == r
    ensures FirstBooking(records, phoneNumber, date) < |records| ==>
      r == records[FirstBooking(records, phoneNumber, date)].appointmentSlot
    ensures FirstBooking(records, phoneNumber, date) == |records| ==> r == None
  {
    var i := FirstBooking(records, phoneNumber, date);
    if i < |records| then records[i].appointmentSlot else None
  }

  /** The numbers booked in `slot` on `date`, each once however many records it has. */
  function BookedNumbers(records: seq<CallRecord>, date: string, slot: string): set<string> {
    set c | c in records && c.appointmentDate == Some(date) && c.appointmentSlot == Some(slot) :: c.phoneNumber
  }

  /** `filter { ... }.map { it.phoneNumber }.distinct().size`. */
  function SlotCount(records: seq<CallRecord>, date: string, slot: string): (n: nat)
    ensures n == 0 <==> forall c :: c in records ==> !(c.appointmentDate == Some(date) && c.appointmentSlot == Some(slot))
  {
    var booked := BookedNumbers(records, date, slot);
    assert forall c :: (c in records && c.appointmentDate == Some(date) && c.appointmentSlot == Some(slot)
      ==> c.phoneNumber in booked);
    |booked|
  }

  /** `find { it.slotTime == slot }?.capacity ?: defaultCapacity`. */
  function SlotCapacity(configs: seq<SlotConfiguration>, slot: string, defaultCapacity: int): (capacity: int)
    ensures (forall c :: c in configs ==> c.slotTime != slot) ==> capacity == defaultCapacity
    ensures (exists c :: c in configs && c.slotTime == slot) ==>
      exists i :: (0 <= i < |configs| && configs[i].slotTime == slot && capacity == configs[i].capacity
        && forall j :: 0 <= j < i ==> configs[j].slotTime != slot)
  {
    match CallDao.FindConfig(configs, slot)
    case Some(c) => c.capacity
    case None => defaultCapacity
  }

  /** With the slot label as primary key, a configured slot's capacity is its configuration's. */
  lemma ConfiguredCapacity(configs: seq<SlotConfiguration>, c: SlotConfiguration, defaultCapacity: int)
    requires DistinctKeys(configs, CallDao.SlotTime)
    requires c in configs
    ensures SlotCapacity(configs, c.slotTime, defaultCapacity) == c.capacity
  {
    CallDao.FindConfigUnique(configs, c);
  }

  predicate HasRoom(records: seq<CallRecord>, configs: seq<SlotConfiguration>, defaultCapacity: int,
                    date: string, slot: string)
  {
    SlotCount(records, date, slot) < SlotCapacity(configs, slot, defaultCapacity)
  }

  /** The position of the first slot from position `k` on that has room, or |AvailableSlots|. */
  function FirstFit(records: seq<CallRecord>, configs: seq<SlotConfiguration>, defaultCapacity: int,
                    date: string, k: nat): (i: nat)
    requires k <= |AvailableSlots|
    ensures k <= i <= |AvailableSlots|
    ensures i < |AvailableSlots| ==> HasRoom(records, configs, defaultCapacity, date, AvailableSlots[i])
    ensures forall j :: k <= j < i ==> !HasRoom(records, configs, defaultCapacity, date, AvailableSlots[j])
    decreases |AvailableSlots| - k
  {
    if k == |AvailableSlots| then k
    else if HasRoom(records, configs, defaultCapacity, date, AvailableSlots[k]) then k
    else FirstFit(records, configs, defaultCapacity, date, k + 1)
  }

  /** The slot `assignAppointmentSlot` answers for a caller on `date`. */
  function AssignedSlot(phoneNumber: string, date: string, records: seq<CallRecord>,
                        configs: seq<SlotConfiguration>, defaultCapacity: int): (slot: string)
    ensures ExistingSlot(records, phoneNumber, date).Some? ==> slot == ExistingSlot(records, phoneNumber, date).value
    ensures ExistingSlot(records, phoneNumber, date).None? ==> slot in AvailableSlots || slot == Waitlist
  {
    var existing := ExistingSlot(records, phoneNumber, date);
    if existing.Some? then existing.value
    else
      var i := FirstFit(records, configs, defaultCapacity, date, 0);
      if i < |AvailableSlots| then AvailableSlots[i] else Waitlist
  }

  /** First fit is determined by "full before, room at": any such position is the one FirstFit finds. */
  lemma FirstFitAt(records: seq<CallRecord>, configs: seq<SlotConfiguration>, defaultCapacity: int,
                   date: string, k: nat)
    requires k <= |AvailableSlots|
    requires forall j :: 0 <= j < k ==> !HasRoom(records, configs, defaultCapacity, date, AvailableSlots[j])
    requires k < |AvailableSlots| ==> HasRoom(records, configs, defaultCapacity, date, AvailableSlots[k])
    ensures FirstFit(records, configs, defaultCapacity, date, 0) == k
  {
  }

  /**
   * `assignAppointmentSlot`, with the repository's reads (all records, newest
   * first, and all slot configurations) and the settings' default capacity
   * given as inputs.
   */
  method AssignAppointmentSlot(phoneNumber: string, callTimestamp: int, allRecords: seq<CallRecord>,
                               allConfigurations: seq<SlotConfiguration>, defaultCapacity: int)
    returns (date: string, slot: string)
    ensures date == FormatDay(NextWorkingDay(DayOf(callTimestamp)))
    ensures slot == AssignedSlot(phoneNumber, date, allRecords, allConfigurations, defaultCapacity)
  {
    var workingDayTimestamp, workingDayDate := GetNextWorkingDay(callTimestamp);
    var existingSlot := ExistingSlot(allRecords, phoneNumber, workingDayDate);
    if existingSlot.Some? {
      return workingDayDate, existingSlot.value;
    }
    for k := 0 to |AvailableSlots|
      invariant forall j :: 0 <= j < k ==>
        !HasRoom(allRecords, allConfigurations, defaultCapacity, workingDayDate, AvailableSlots[j])
    {
      var candidate := AvailableSlots[k];
      var countInSlot := SlotCount(allRecords, workingDayDate, candidate);
      var capacity := SlotCapacity(allConfigurations, candidate, defaultCapacity);
      if countInSlot < capacity {
        FirstFitAt(allRecords, allConfigurations, defaultCapacity, workingDayDate, k);
        return workingDayDate, candidate;
      }
    }
    FirstFitAt(allRecords, allConfigurations, defaultCapacity, workingDayDate, |AvailableSlots|);
    return workingDayDate, Waitlist;
  }

  /**
   * What the answer means: a caller with a slot on that date keeps it;
   * otherwise the answer is the first slot with room, every earlier slot
   * being full, and it is "WAITLIST" exactly when all eight are full.
   */
  lemma AssignedSlotMeaning(phoneNumber: string, date: string, records: seq<CallRecord>,
                            configs: seq<SlotConfiguration>, defaultCapacity: int)
    ensures var existing := ExistingSlot(records, phoneNumber, date);
      existing.Some? ==> AssignedSlot(phoneNumber, date, records, configs, defaultCapacity) == existing.value
    ensures var slot := AssignedSlot(phoneNumber, date, records, configs, defaultCapacity);
      ExistingSlot(records, phoneNumber, date).None? ==>
        (slot == Waitlist <==>
          forall j :: 0 <= j < |AvailableSlots| ==> !HasRoom(records, configs, defaultCapacity, date, AvailableSlots[j]))
    ensures var slot := AssignedSlot(phoneNumber, date, records, configs, defaultCapacity);
      ExistingSlot(records, phoneNumber, date).None? && slot != Waitlist ==>
        exists k :: 0 <= k < |AvailableSlots| && slot == AvailableSlots[k]
          && HasRoom(records, configs, defaultCapacity, date, AvailableSlots[k])
          && forall j :: 0 <= j < k ==> !HasRoom(records, configs, defaultCapacity, date, AvailableSlots[j])
  {
    var i := FirstFit(records, configs, defaultCapacity, date, 0);
    if ExistingSlot(records, phoneNumber, date).None? && i < |AvailableSlots| {
      assert AvailableSlots[i] != Waitlist;
    }
  }

  /**
   * The record that decides an existing booking is the caller's newest
   * record on that date, when the records are read newest first.
   */
  lemma ExistingBookingIsNewest(rows: seq<CallRecord>, phoneNumber: string, date: string)
    ensures var records := CallDao.SelectAllCalls(rows);
      var i := FirstBooking(records, phoneNumber, date);
      i < |records| ==>
        forall c :: c in rows && BookedOn(c, phoneNumber, date) ==> c.timestamp <= records[i].timestamp
  {
    var records := CallDao.SelectAllCalls(rows);
    var i := FirstBooking(records, phoneNumber, date);
    if i < |records| {
      forall c | c in rows && BookedOn(c, phoneNumber, date) ensures c.timestamp <= records[i].timestamp {
        assert c in multiset(rows);
        assert c in records;
        var k :| 0 <= k < |records| && records[k] == c;
        assert i <= k;
        SortedAt(records, CallDao.Timestamp, i, k);
      }
    }
  }

  /** A caller whose newest record holds a slot on that date is given that slot again. */
  lemma RepeatCallerKeepsSlot(booked: CallRecord, records: seq<CallRecord>,
                              configs: seq<SlotConfiguration>, defaultCapacity: int)
    requires booked.appointmentDate.Some? && booked.appointmentSlot.Some?
    ensures AssignedSlot(booked.phoneNumber, booked.appointmentDate.value, [booked] + records, configs, defaultCapacity)
      == booked.appointmentSlot.value
  {
  }

  /**
   * Recording a fresh assignment never takes a slot over its capacity: the
   * caller adds at most one distinct number to a slot that had room.
   */
  lemma {:induction false} AssignmentRespectsCapacity(phoneNumber: string, date: string, records: seq<CallRecord>,
                                                      configs: seq<SlotConfiguration>, defaultCapacity: int,
                                                      booked: CallRecord)
    requires ExistingSlot(records, phoneNumber, date).None?
    requires AssignedSlot(phoneNumber, date, records, configs, defaultCapacity) != Waitlist
    requires booked.phoneNumber == phoneNumber && booked.appointmentDate == Some(date)
    requires booked.appointmentSlot == Some(AssignedSlot(phoneNumber, date, records, configs, defaultCapacity))
    ensures var slot := booked.appointmentSlot.value;
      SlotCount([booked] + records, date, slot) <= SlotCapacity(configs, slot, defaultCapacity)
  {
    var slot := booked.appointmentSlot.value;
    var i := FirstFit(records, configs, defaultCapacity, date, 0);
    assert i < |AvailableSlots| && slot == AvailableSlots[i];
    var before := BookedNumbers(records, date, slot);
    var after := BookedNumbers([booked] + records, date, slot);
    assert after == before + {phoneNumber} by {
      forall p | p in after ensures p in before + {phoneNumber} {
        var c :| c in [booked] + records && c.appointmentDate == Some(date) && c.appointmentSlot == Some(slot)
          && c.phoneNumber == p;
        if c != booked {
          assert c in records;
        }
      }
      assert booked in [booked] + records;
    }
    assert |before + {phoneNumber}| <= |before| + 1;
  }

  const MessagePrefix: string := "You have an appointment on "

  /** `generateAppointmentMessage`. The date argument is not used by the text. */
  function AppointmentMessage(appointmentDate: string, appointmentSlot: string, appointmentTimestamp: int): (message: string)
    ensures |message| >= |MessagePrefix| + 4 + |appointmentSlot|
    ensures message[..|MessagePrefix|] == MessagePrefix
    ensures message[|message| - |appointmentSlot| - 4..] == " at " + appointmentSlot
    ensures var name := message[|MessagePrefix|..|message| - |appointmentSlot| - 4];
      name in DayNames && (name == "Sunday" <==> IsSunday(DayOf(appointmentTimestamp)))
        && name == DayNames[DayOfWeek(DayOf(appointmentTimestamp)) - 1]
  {
    var name := DayName(appointmentTimestamp);
    var message := MessagePrefix + name + " at " + appointmentSlot;
    assert message[|MessagePrefix|..|message| - |appointmentSlot| - 4] == name;
    message
  }

  /**
   * The confirmation for a booking names the weekday of the next working
   * day, which is never Sunday, and the booked slot; it does not depend on
   * the date string.
   */
  lemma BookingMessageNamesWorkingDay(callTimestamp: int, appointmentTimestamp: int, date: string, otherDate: string,
                                      slot: string)
    requires DayOf(appointmentTimestamp) == NextWorkingDay(DayOf(callTimestamp))
    ensures exists name :: (name in DayNames && name != "Sunday"
      && AppointmentMessage(date, slot, appointmentTimestamp) == MessagePrefix + name + " at " + slot)
    ensures AppointmentMessage(date, slot, appointmentTimestamp)
      == MessagePrefix + DayNames[DayOfWeek(NextWorkingDay(DayOf(callTimestamp))) - 1] + " at " + slot
    ensures AppointmentMessage(date, slot, appointmentTimestamp) == AppointmentMessage(otherDate, slot, appointmentTimestamp)
  {
    var name := DayName(appointmentTimestamp);
    assert name in DayNames && name != "Sunday";
  }
}

=== FILE: call_dao.dfy ===
/**
 * The two Room tables the app keeps, `call_records` and
 * `slot_configurations`, with the statements of the data-access object:
 * the writes change the tables in place, the SELECTs are filter-and-sort
 * functions of the rows.
 */
module CallDao {
  import opened Options
  import opened Records
  import opened Seqs

  function Id(c: CallRecord): int { c.id }
  function Timestamp(c: CallRecord): int { c.timestamp }
  function SlotTime(c: SlotConfiguration): string { c.slotTime }

  /** `SELECT * FROM call_records ORDER BY timestamp DESC`: every row, newest first. */
  function SelectAllCalls(rows: seq<CallRecord>): (r: seq<CallRecord>)
    ensures multiset(r) == multiset(rows)
    ensures SortedDesc(r, Timestamp)
  {
    SortByDesc(rows, Timestamp)
  }

  function OnDate(date: string): CallRecord -> bool {
    (c: CallRecord) => c.appointmentDate == Some(date)
  }

  /**
   * `... WHERE appointmentDate = :date ORDER BY timestamp DESC`: the rows
   * booked on `date`, newest first. A NULL date equals nothing.
   */
  function SelectAppointmentsForDate(rows: seq<CallRecord>, date: string): (r: seq<CallRecord>)
    ensures SortedDesc(r, Timestamp)
    ensures forall c :: multiset(r)[c] == if c.appointmentDate == Some(date) then multiset(rows)[c] else 0
    ensures forall c :: c in r <==> c in rows && c.appointmentDate == Some(date)
  {
    var r := SortByDesc(Filter(rows, OnDate(date)), Timestamp);
    assert forall c :: c in r <==> c in multiset(r);
    r
  }

  function NotId(id: int): CallRecord -> bool {
    (c: CallRecord) => c.id != id
  }

  /** `@Delete deleteCall`: the rows left after deleting by primary key. */
  function DeleteCallRows(rows: seq<CallRecord>, id: int): (r: seq<CallRecord>)
    ensures forall c :: c in r <==> c in rows && c.id != id
    ensures forall c: CallRecord :: c.id != id ==> multiset(r)[c] == multiset(rows)[c]
  {
    Filter(rows, NotId(id))
  }

  function NotBooking(phoneNumber: string, date: string): CallRecord -> bool {
    (c: CallRecord) => !(c.phoneNumber == phoneNumber && c.appointmentDate == Some(date))
  }

  /**
   * `DELETE FROM call_records WHERE phoneNumber = :phoneNumber AND
   * appointmentDate = :date`: exactly that caller's rows on that date go;
   * a row with a NULL date never matches.
   */
  function DeleteBookingRows(rows: seq<CallRecord>, phoneNumber: string, date: string): (r: seq<CallRecord>)
    ensures forall c :: c in r <==> c in rows && !(c.phoneNumber == phoneNumber && c.appointmentDate == Some(date))
    ensures forall c: CallRecord :: c.appointmentDate == None ==> multiset(r)[c] == multiset(rows)[c]
    ensures forall c: CallRecord :: c.phoneNumber != phoneNumber ==> multiset(r)[c] == multiset(rows)[c]
  {
    Filter(rows, NotBooking(phoneNumber, date))
  }

  /** Deleting by a primary key that is present removes exactly one row. */
  lemma {:induction false} DeleteCallRemovesOneRow(rows: seq<CallRecord>, id: int)
    requires DistinctKeys(rows, Id)
    requires exists c :: c in rows && c.id == id
    ensures |DeleteCallRows(rows, id)| == |rows| - 1
  {
    var tail := rows[1..];
    assert DistinctKeys(tail, Id) by {
      forall i, j | 0 <= i < j < |tail| ensures tail[i].id != tail[j].id {
        assert tail[i] == rows[i + 1] && tail[j] == rows[j + 1];
      }
    }
    if rows[0].id == id {
      forall c | c in tail ensures NotId(id)(c) {
        var k :| 0 <= k < |tail| && tail[k] == c;
        assert rows[k + 1] == c;
      }
      FilterKeepsAll(tail, NotId(id));
    } else {
      var c :| c in rows && c.id == id;
      assert c in tail by {
        var k :| 0 <= k < |rows| && rows[k] == c;
        assert k != 0 && tail[k - 1] == c;
      }
      DeleteCallRemovesOneRow(tail, id);
    }
  }

  function NotSlot(slotTime: string): SlotConfiguration -> bool {
    (c: SlotConfiguration) => c.slotTime != slotTime
  }

  /** `DELETE FROM slot_configurations WHERE slotTime = :slotTime`. */
  function DeleteConfigRows(configs: seq<SlotConfiguration>, slotTime: string): (r: seq<SlotConfiguration>)
    ensures forall c :: c in r <==> c in configs && c.slotTime != slotTime
  {
    Filter(configs, NotSlot(slotTime))
  }

  /** `@Insert(onConflict = REPLACE)`: the row with the same key is replaced by the new one. */
  function UpsertConfigRows(configs: seq<SlotConfiguration>, config: SlotConfiguration): (r: seq<SlotConfiguration>)
    ensures forall c :: c in r <==> c == config || (c in configs && c.slotTime != config.slotTime)
  {
    DeleteConfigRows(configs, config.slotTime) + [config]
  }

  /** `find { it.slotTime == slotTime }`: the first configuration of that slot, if any. */
  function FindConfig(configs: seq<SlotConfiguration>, slotTime: string): (r: Option<SlotConfiguration>)
    ensures r.Some? ==> r.value in configs && r.value.slotTime == slotTime
    ensures r.Some? ==> exists i :: (0 <= i < |configs| && configs[i] == r.value
      && forall j :: 0 <= j < i ==> configs[j].slotTime != slotTime)
    ensures r.None? <==> forall c :: c in configs ==> c.slotTime != slotTime
  {
    if configs == [] then None
    else if configs[0].slotTime == slotTime then Some(configs[0])
    else FindConfig(configs[1..], slotTime)
  }

  /** With the slot label as primary key, a slot has at most one configuration. */
  lemma FindConfigUnique(configs: seq<SlotConfiguration>, c: SlotConfiguration)
    requires DistinctKeys(configs, SlotTime)
    requires c in configs
    ensures FindConfig(configs, c.slotTime) == Some(c)
  {
    var found := FindConfig(configs, c.slotTime).value;
    var i :| 0 <= i < |configs| && configs[i] == c;
    var j :| 0 <= j < |configs| && configs[j] == found;
    assert SlotTime(configs[i]) == SlotTime(configs[j]);
  }

  /**
   * After an upsert the slot's configuration is the new one, and every
   * other slot's configuration is what it was.
   */
  lemma UpsertThenFind(configs: seq<SlotConfiguration>, config: SlotConfiguration, slotTime: string)
    requires DistinctKeys(configs, SlotTime)
    ensures FindConfig(UpsertConfigRows(configs, config), config.slotTime) == Some(config)
    ensures slotTime != config.slotTime ==>
      FindConfig(UpsertConfigRows(configs, config), slotTime) == FindConfig(configs, slotTime)
  {
    var r := UpsertConfigRows(configs, config);
    FilterKeepsDistinctKeys(configs, NotSlot(config.slotTime), SlotTime);
    assert DistinctKeys(r, SlotTime);
    FindConfigUnique(r, config);
    if slotTime != config.slotTime {
      var old_ := FindConfig(configs, slotTime);
      if old_.Some? {
        FindConfigUnique(r, old_.value);
      }
    }
  }

  /** After a delete the slot has no configuration, and every other slot keeps its own. */
  lemma DeleteThenFind(configs: seq<SlotConfiguration>, deleted: string, slotTime: string)
    requires DistinctKeys(configs, SlotTime)
    ensures FindConfig(DeleteConfigRows(configs, deleted), deleted) == None
    ensures slotTime != deleted ==>
      FindConfig(DeleteConfigRows(configs, deleted), slotTime) == FindConfig(configs, slotTime)
  {
    var r := DeleteConfigRows(configs, deleted);
    FilterKeepsDistinctKeys(configs, NotSlot(deleted), SlotTime);
    if slotTime != deleted {
      var old_ := FindConfig(configs, slotTime);
      if old_.Some? {
        FindConfigUnique(r, old_.value);
      }
    }
  }

  function Max(a: int, b: int): (m: int)
    ensures m >= a && m >= b
    ensures m == a || m == b
  {
    if a >= b then a else b
  }

  /**
   * The row `@Insert` stores: a record with id 0 gets the next id of the
   * AUTOINCREMENT sequence, any other keeps its own.
   */
  function StoredRow(record: CallRecord, lastId: int): (r: CallRecord)
    requires lastId >= 0
    ensures record.id != 0 ==> r == record
    ensures record.id == 0 ==> r.id == lastId + 1
    ensures r.(id := record.id) == record
  {
    if record.id == 0 then record.(id := lastId + 1) else record
  }

  /** Both tables, rows in insertion order. */
  class CallTable {
    var calls: seq<CallRecord>
    /** The largest id ever stored, as SQLite's AUTOINCREMENT sequence keeps it. */
    var lastId: int
    var configs: seq<SlotConfiguration>

    ghost predicate Valid()
      reads this
    {
      && lastId >= 0
      && DistinctKeys(calls, Id)
      && (forall c :: c in calls ==> c.id <= lastId)
      && DistinctKeys(configs, SlotTime)
    }

    constructor ()
      ensures Valid()
      ensures calls == [] && configs == [] && lastId == 0
    {
      calls, lastId, configs := [], 0, [];
    }

    /**
     * `insertCall`: appends the stored row. An explicit id that is already
     * present violates the primary key; the insert is aborted and nothing changes.
     */
    method InsertCall(record: CallRecord) returns (ok: bool)
      requires Valid()
      modifies this
      ensures Valid()
      ensures ok <==> record.id == 0 || forall c :: c in old(calls) ==> c.id != record.id
      ensures ok ==> calls == old(calls) + [StoredRow(record, old(lastId))]
      ensures ok ==> lastId == Max(old(lastId), StoredRow(record, old(lastId)).id)
      ensures !ok ==> calls == old(calls) && lastId == old(lastId)
      ensures configs == old(configs)
    {
      if record.id != 0 && exists c :: c in calls && c.id == record.id {
        return false;
      }
      var row := StoredRow(record, lastId);
      calls := calls + [row];
      lastId := Max(lastId, row.id);
      ok := true;
    }

    /** `deleteCall`: removes the row with the record's primary key. */
    method DeleteCall(record: CallRecord)
      requires Valid()
      modifies this
      ensures Valid()
      ensures calls == DeleteCallRows(old(calls), record.id)
      ensures lastId == old(lastId) && configs == old(configs)
    {
      FilterKeepsDistinctKeys(calls, NotId(record.id), Id);
      calls := DeleteCallRows(calls, record.id);
    }

    /** `deleteByPhoneNumberAndDate`. */
    method DeleteByPhoneNumberAndDate(phoneNumber: string, date: string)
      requires Valid()
      modifies this
      ensures Valid()
      ensures calls == DeleteBookingRows(old(calls), phoneNumber, date)
      ensures lastId == old(lastId) && configs == old(configs)
    {
      FilterKeepsDistinctKeys(calls, NotBooking(phoneNumber, date), Id);
      calls := DeleteBookingRows(calls, phoneNumber, date);
    }

    /** `getAllCalls` and `getAllCallsSync`. */
    method GetAllCalls() returns (rows: seq<CallRecord>)
      ensures rows == SelectAllCalls(calls)
    {
      rows := SelectAllCalls(calls);
    }

    /** `getAppointmentsForDateFlow`. */
    method GetAppointmentsForDate(date: string) returns (rows: seq<CallRecord>)
      ensures rows == SelectAppointmentsForDate(calls, date)
    {
      rows := SelectAppointmentsForDate(calls, date);
    }

    /** `upsertSlotConfiguration`. */
    method UpsertSlotConfiguration(config: SlotConfiguration)
      requires Valid()
      modifies this
      ensures Valid()
      ensures configs == UpsertConfigRows(old(configs), config)
      ensures calls == old(calls) && lastId == old(lastId)
    {
      FilterKeepsDistinctKeys(configs, NotSlot(config.slotTime), SlotTime);
      configs := UpsertConfigRows(configs, config);
    }

    /** `deleteSlotConfiguration`. */
    method DeleteSlotConfiguration(slotTime: string)
      requires Valid()
      modifies this
      ensures Valid()
      ensures configs == DeleteConfigRows(old(configs), slotTime)
      ensures calls == old(calls) && lastId == old(lastId)
    {
      FilterKeepsDistinctKeys(configs, NotSlot(slotTime), SlotTime);
      configs := DeleteConfigRows(configs, slotTime);
    }

    /** `getSlotConfiguration`. */
    method GetSlotConfiguration(slotTime: string) returns (config: Option<SlotConfiguration>)
      ensures config == FindConfig(configs, slotTime)
    {
      config := FindConfig(configs, slotTime);
    }

    /** `getAllSlotConfigurations` and `getAllSlotConfigurationsSync`. */
    method GetAllSlotConfigurations() returns (rows: seq<SlotConfiguration>)
      ensures rows == configs
    {
      rows := configs;
    }
  }
}

=== FILE: call_history.dfy ===
/**
 * The call-history screen's grouping: the calls are ordered newest first,
 * grouped by the calendar date they happened on, and within a date
 * summarised per phone number, the summaries ordered by their latest call.
 */
module CallHistory {
  import opened Options
  import opened Records
  import opened Days
  import opened Seqs
  import CallDao

  /** The key the calls are grouped by first: their formatted date. */
  function DateKey(c: CallRecord): string { FormatDate(c.timestamp) }

  /** The key the calls of one date are grouped by. */
  function Phone(c: CallRecord): string { c.phoneNumber }

  function LastCallTime(g: GroupedCall): int { g.lastCallTime }
  function CallCount(g: GroupedCall): int { g.callCount }
  function GroupPhone(g: GroupedCall): string { g.phoneNumber }

  /**
   * Which call of a number's newest-first group gives the summary its SMS
   * flag: the last one (the oldest call) as the app is written, or the
   * first one (the newest call) as the summary's field is documented.
   */
  datatype SmsFlagSource = LastOfGroup | FirstOfGroup

  /** `maxOf { it.timestamp }`. */
  function MaxTimestamp(calls: seq<CallRecord>): int
    requires calls != []
  {
    if |calls| == 1 then calls[0].timestamp
    else
      var rest := MaxTimestamp(calls[1..]);
      if calls[0].timestamp >= rest then calls[0].timestamp else rest
  }

  /** `maxOf` is the largest timestamp, and the timestamp of one of the calls. */
  lemma {:induction false} MaxTimestampIsMax(calls: seq<CallRecord>)
    requires calls != []
    ensures forall c :: c in calls ==> c.timestamp <= MaxTimestamp(calls)
    ensures exists c :: c in calls && c.timestamp == MaxTimestamp(calls)
  {
    assert calls[0] in calls;
    if |calls| > 1 {
      MaxTimestampIsMax(calls[1..]);
      assert forall c :: c in calls ==> c == calls[0] || c in calls[1..];
      var c :| c in calls[1..] && c.timestamp == MaxTimestamp(calls[1..]);
      assert c in calls;
    }
  }

  /** The summary of the (newest-first) calls one number made on one date. */
  function Summarize(phoneNumber: string, calls: seq<CallRecord>, source: SmsFlagSource): (g: GroupedCall)
    requires calls != []
    ensures g.phoneNumber == phoneNumber && g.callCount == |calls|
    ensures g.firstCallId == calls[0].id
  {
    GroupedCall(
      phoneNumber,
      |calls|,
      MaxTimestamp(calls),
      if source == LastOfGroup then calls[|calls| - 1].smsSent else calls[0].smsSent,
      calls[0].id)
  }

  /** Every listed number has at least one call in `calls`. */
  ghost predicate AllCalled(calls: seq<CallRecord>, phones: seq<string>) {
    forall p :: p in phones ==> Filter(calls, HasKey(Phone, p)) != []
  }

  /** One summary per listed number, in the order of the numbers. */
  function SummarizeAll(calls: seq<CallRecord>, phones: seq<string>, source: SmsFlagSource): (r: seq<GroupedCall>)
    requires AllCalled(calls, phones)
    ensures |r| == |phones|
    ensures forall i :: 0 <= i < |phones| ==> r[i].phoneNumber == phones[i]
  {
    seq(|phones|, i requires 0 <= i < |phones| =>
      assert phones[i] in phones;
      Summarize(phones[i], Filter(calls, HasKey(Phone, phones[i])), source))
  }

  /** The numbers that called on one date, in order of their newest call. */
  function PhonesOf(callsForDate: seq<CallRecord>): (r: seq<string>)
    ensures AllCalled(callsForDate, r)
    ensures NoDup(r)
    ensures forall c :: c in callsForDate ==> c.phoneNumber in r
  {
    var keys := KeysOf(callsForDate, Phone);
    var r := Dedup(keys);
    assert forall c :: c in callsForDate ==> Phone(c) in keys;
    KeysCalled(callsForDate, r);
    r
  }

  lemma KeysCalled(calls: seq<CallRecord>, phones: seq<string>)
    requires forall p :: p in phones ==> p in KeysOf(calls, Phone)
    ensures AllCalled(calls, phones)
  {
    forall p | p in phones ensures Filter(calls, HasKey(Phone, p)) != [] {
      var c :| c in calls && Phone(c) == p;
      assert c in Filter(calls, HasKey(Phone, p));
    }
  }

  /** The summaries of one date, newest first. */
  function GroupsOfDay(callsForDate: seq<CallRecord>, source: SmsFlagSource): (r: seq<GroupedCall>)
    ensures SortedDesc(r, LastCallTime)
    ensures |r| == |PhonesOf(callsForDate)|
  {
    SortByDesc(SummarizeAll(callsForDate, PhonesOf(callsForDate), source), LastCallTime)
  }

  /** The newest-first calls of one date. */
  function CallsOn(calls: seq<CallRecord>, date: string): seq<CallRecord> {
    Filter(SortByDesc(calls, CallDao.Timestamp), HasKey(DateKey, date))
  }

  /** The grouping with a chosen source for the SMS flag. */
  function GroupCalls(calls: seq<CallRecord>, source: SmsFlagSource): (r: map<string, seq<GroupedCall>>)
    ensures forall d :: d in r ==> r[d] != [] && SortedDesc(r[d], LastCallTime)
  {
    var sorted := SortByDesc(calls, CallDao.Timestamp);
    map d | d in KeysOf(sorted, DateKey) :: GroupsOfDay(CallsOn(calls, d), source)
  }

  /** `groupCallsByNumber` as the app is written: one non-empty, newest-first list per date called on. */
  function GroupCallsByNumber(calls: seq<CallRecord>): (r: map<string, seq<GroupedCall>>)
    ensures forall d :: d in r <==> exists c :: c in calls && DateKey(c) == d
    ensures forall d :: d in r ==> r[d] != [] && SortedDesc(r[d], LastCallTime)
  {
    AllGroupDates(calls, LastOfGroup);
    GroupCalls(calls, LastOfGroup)
  }

  /** `groupCallsByNumber` with the SMS flag of the newest call, as documented. */
  function GroupCallsByNumberIntended(calls: seq<CallRecord>): (r: map<string, seq<GroupedCall>>)
    ensures forall d :: d in r <==> exists c :: c in calls && DateKey(c) == d
    ensures forall d :: d in r ==> r[d] != [] && SortedDesc(r[d], LastCallTime)
  {
    AllGroupDates(calls, FirstOfGroup);
    GroupCalls(calls, FirstOfGroup)
  }

  /** The calls one number made on one date. */
  ghost predicate CallOf(calls: seq<CallRecord>, date: string, phoneNumber: string, c: CallRecord) {
    c in calls && DateKey(c) == date && c.phoneNumber == phoneNumber
  }

  /** The calls of one date: newest first, and the same calls as in the unsorted list. */
  lemma CallsOnFacts(calls: seq<CallRecord>, date: string)
    ensures SortedDesc(CallsOn(calls, date), CallDao.Timestamp)
    ensures forall c :: c in CallsOn(calls, date) <==> c in calls && DateKey(c) == date
    ensures multiset(CallsOn(calls, date)) == multiset(Filter(calls, HasKey(DateKey, date)))
  {
    var sorted := SortByDesc(calls, CallDao.Timestamp);
    FilterKeepsSorted(sorted, HasKey(DateKey, date), CallDao.Timestamp);
    forall c ensures c in sorted <==> c in calls {
      assert c in multiset(sorted) <==> c in multiset(calls);
    }
    FilterPermutation(sorted, calls, HasKey(DateKey, date));
  }

  lemma DayGroups(calls: seq<CallRecord>, source: SmsFlagSource, date: string)
    requires date in GroupCalls(calls, source)
    ensures GroupCalls(calls, source)[date] == GroupsOfDay(CallsOn(calls, date), source)
  {
  }

  /** A summary of one date's calls summarises the calls of its number. */
  lemma SummaryOfDay(callsForDate: seq<CallRecord>, source: SmsFlagSource, g: GroupedCall)
    requires g in GroupsOfDay(callsForDate, source)
    ensures Filter(callsForDate, HasKey(Phone, g.phoneNumber)) != []
    ensures g == Summarize(g.phoneNumber, Filter(callsForDate, HasKey(Phone, g.phoneNumber)), source)
  {
    var phones := PhonesOf(callsForDate);
    var summaries := SummarizeAll(callsForDate, phones, source);
    assert g in multiset(GroupsOfDay(callsForDate, source));
    assert g in multiset(summaries);
    var i :| 0 <= i < |summaries| && summaries[i] == g;
    assert phones[i] in phones;
  }

  /** Every summary is the summary of its number's calls of that date, newest first. */
  lemma GroupOf(calls: seq<CallRecord>, source: SmsFlagSource, date: string, g: GroupedCall)
    returns (group: seq<CallRecord>)
    requires date in GroupCalls(calls, source) && g in GroupCalls(calls, source)[date]
    ensures group != []
    ensures g == Summarize(g.phoneNumber, group, source)
    ensures SortedDesc(group, CallDao.Timestamp)
    ensures forall c :: c in group <==> CallOf(calls, date, g.phoneNumber, c)
    ensures |group| == |Filter(Filter(calls, HasKey(DateKey, date)), HasKey(Phone, g.phoneNumber))|
  {
    var day := CallsOn(calls, date);
    DayGroups(calls, source, date);
    SummaryOfDay(day, source, g);
    group := Filter(day, HasKey(Phone, g.phoneNumber));
    CallsOnFacts(calls, date);
    FilterKeepsSorted(day, HasKey(Phone, g.phoneNumber), CallDao.Timestamp);
    FilterPermutation(day, Filter(calls, HasKey(DateKey, date)), HasKey(Phone, g.phoneNumber));
  }

  /** The dates of the grouping are exactly the dates on which calls happened. */
  lemma GroupDates(calls: seq<CallRecord>, source: SmsFlagSource, date: string)
    ensures date in GroupCalls(calls, source) <==> exists c :: c in calls && DateKey(c) == date
  {
    var sorted := SortByDesc(calls, CallDao.Timestamp);
    forall c ensures c in sorted <==> c in calls {
      assert c in multiset(sorted) <==> c in multiset(calls);
    }
  }

  lemma AllGroupDates(calls: seq<CallRecord>, source: SmsFlagSource)
    ensures forall d :: d in GroupCalls(calls, source) <==> exists c :: c in calls && DateKey(c) == d
  {
    forall d ensures d in GroupCalls(calls, source) <==> exists c :: c in calls && DateKey(c) == d {
      GroupDates(calls, source, d);
    }
  }

  /** Two calls share a date group exactly when they were made on the same day. */
  lemma SameDayGroup(calls: seq<CallRecord>, c1: CallRecord, c2: CallRecord)
    requires c2 in calls
    ensures c2 in CallsOn(calls, DateKey(c1)) <==> DayOf(c1.timestamp) == DayOf(c2.timestamp)
  {
    CallsOnFacts(calls, DateKey(c1));
    SameDateIffSameDay(c1.timestamp, c2.timestamp);
  }

  /** Within a date, every number has exactly one summary. */
  lemma OneGroupPerNumber(calls: seq<CallRecord>, source: SmsFlagSource, date: string)
    requires date in GroupCalls(calls, source)
    ensures DistinctKeys(GroupCalls(calls, source)[date], GroupPhone)
  {
    var day := CallsOn(calls, date);
    var phones := PhonesOf(day);
    var summaries := SummarizeAll(day, phones, source);
    assert DistinctKeys(summaries, GroupPhone);
    DistinctKeysPermutation(summaries, SortByDesc(summaries, LastCallTime), GroupPhone);
  }

  /** A number that called on a date has a summary on that date. */
  lemma EveryCallerListed(calls: seq<CallRecord>, source: SmsFlagSource, c: CallRecord)
    requires c in calls
    ensures DateKey(c) in GroupCalls(calls, source)
    ensures exists g :: g in GroupCalls(calls, source)[DateKey(c)] && g.phoneNumber == c.phoneNumber
  {
    GroupDates(calls, source, DateKey(c));
    var date := DateKey(c);
    var sorted := SortByDesc(calls, CallDao.Timestamp);
    var day := CallsOn(calls, date);
    var phones := PhonesOf(day);
    var summaries := SummarizeAll(day, phones, source);
    assert c in multiset(sorted);
    assert c in day;
    var i :| 0 <= i < |phones| && phones[i] == c.phoneNumber;
    assert summaries[i] in multiset(SortByDesc(summaries, LastCallTime));
  }

  /** `callCount` counts the calls the number made on that date. */
  lemma CallCountCountsCalls(calls: seq<CallRecord>, source: SmsFlagSource, date: string, g: GroupedCall)
    requires date in GroupCalls(calls, source) && g in GroupCalls(calls, source)[date]
    ensures g.callCount == |Filter(Filter(calls, HasKey(DateKey, date)), HasKey(Phone, g.phoneNumber))|
    ensures g.callCount >= 1
  {
    var group := GroupOf(calls, source, date, g);
  }

  /**
   * `lastCallTime` is the time of the number's latest call that date, and
   * `firstCallId` the id of a call made at that time.
   */
  lemma LatestCallSummarized(calls: seq<CallRecord>, source: SmsFlagSource, date: string, g: GroupedCall)
    requires date in GroupCalls(calls, source) && g in GroupCalls(calls, source)[date]
    ensures forall c :: CallOf(calls, date, g.phoneNumber, c) ==> c.timestamp <= g.lastCallTime
    ensures exists c :: CallOf(calls, date, g.phoneNumber, c) && c.timestamp == g.lastCallTime && c.id == g.firstCallId
  {
    var group := GroupOf(calls, source, date, g);
    MaxTimestampIsMax(group);
    var c :| c in group && c.timestamp == g.lastCallTime;
    var k :| 0 <= k < |group| && group[k] == c;
    SortedAt(group, CallDao.Timestamp, 0, k);
    assert group[0] in group;
  }

  /** As written, the SMS flag of a summary is that of the number's OLDEST call that date. */
  lemma SmsFlagOfOldestCall(calls: seq<CallRecord>, date: string, g: GroupedCall)
    requires date in GroupCallsByNumber(calls) && g in GroupCallsByNumber(calls)[date]
    ensures exists c :: (CallOf(calls, date, g.phoneNumber, c) && c.smsSent == g.smsSent &&
      forall d :: CallOf(calls, date, g.phoneNumber, d) ==> c.timestamp <= d.timestamp)
  {
    var group := GroupOf(calls, LastOfGroup, date, g);
    var c := group[|group| - 1];
    assert c in group;
    forall d | CallOf(calls, date, g.phoneNumber, d) ensures c.timestamp <= d.timestamp {
      var k :| 0 <= k < |group| && group[k] == d;
      SortedAt(group, CallDao.Timestamp, k, |group| - 1);
    }
  }

  /** As intended, the SMS flag of a summary is that of the number's latest call that date. */
  lemma IntendedSmsFlagOfNewestCall(calls: seq<CallRecord>, date: string, g: GroupedCall)
    requires date in GroupCallsByNumberIntended(calls) && g in GroupCallsByNumberIntended(calls)[date]
    ensures exists c :: (CallOf(calls, date, g.phoneNumber, c) && c.smsSent == g.smsSent &&
      c.timestamp == g.lastCallTime && c.id == g.firstCallId)
  {
    var group := GroupOf(calls, FirstOfGroup, date, g);
    var c := group[0];
    assert c in group;
    MaxTimestampIsMax(group);
    var m :| m in group && m.timestamp == g.lastCallTime;
    var k :| 0 <= k < |group| && group[k] == m;
    SortedAt(group, CallDao.Timestamp, 0, k);
  }

  /**
   * Calls of one number on one date with a unique oldest call: as written,
   * the number's summary carries the SMS flag of that oldest call.
   */
  lemma FlagOfStrictlyOldest(calls: seq<CallRecord>, oldest: CallRecord)
    requires oldest in calls
    requires forall c :: c in calls ==> c.phoneNumber == oldest.phoneNumber && DateKey(c) == DateKey(oldest)
    requires forall c :: c in calls && c != oldest ==> oldest.timestamp < c.timestamp
    ensures DateKey(oldest) in GroupCallsByNumber(calls)
    ensures GroupCallsByNumber(calls)[DateKey(oldest)] != []
    ensures forall g :: g in GroupCallsByNumber(calls)[DateKey(oldest)] ==> g.smsSent == oldest.smsSent
  {
    EveryCallerListed(calls, LastOfGroup, oldest);
    forall g | g in GroupCallsByNumber(calls)[DateKey(oldest)] ensures g.smsSent == oldest.smsSent {
      FlagOfOldest(calls, g, oldest);
    }
  }

  lemma FlagOfOldest(calls: seq<CallRecord>, g: GroupedCall, oldest: CallRecord)
    requires DateKey(oldest) in GroupCallsByNumber(calls) && g in GroupCallsByNumber(calls)[DateKey(oldest)]
    requires oldest in calls
    requires forall c :: c in calls ==> c.phoneNumber == oldest.phoneNumber
    requires forall c :: c in calls && c != oldest ==> oldest.timestamp < c.timestamp
    ensures g.smsSent == oldest.smsSent
  {
    var date := DateKey(oldest);
    SmsFlagOfOldestCall(calls, date, g);
    var c :| CallOf(calls, date, g.phoneNumber, c) && c.smsSent == g.smsSent &&
      forall d :: CallOf(calls, date, g.phoneNumber, d) ==> c.timestamp <= d.timestamp;
    assert CallOf(calls, date, g.phoneNumber, oldest);
  }

  /**
   * Calls of one number on one date with a unique latest call: as intended,
   * the number's summary carries the SMS flag of that latest call.
   */
  lemma FlagOfStrictlyNewest(calls: seq<CallRecord>, newest: CallRecord)
    requires newest in calls
    requires forall c :: c in calls ==> c.phoneNumber == newest.phoneNumber && DateKey(c) == DateKey(newest)
    requires forall c :: c in calls && c != newest ==> c.timestamp < newest.timestamp
    ensures DateKey(newest) in GroupCallsByNumberIntended(calls)
    ensures GroupCallsByNumberIntended(calls)[DateKey(newest)] != []
    ensures forall g :: g in GroupCallsByNumberIntended(calls)[DateKey(newest)] ==> g.smsSent == newest.smsSent
  {
    EveryCallerListed(calls, FirstOfGroup, newest);
    forall g | g in GroupCallsByNumberIntended(calls)[DateKey(newest)] ensures g.smsSent == newest.smsSent {
      FlagOfNewest(calls, g, newest);
    }
  }

  lemma FlagOfNewest(calls: seq<CallRecord>, g: GroupedCall, newest: CallRecord)
    requires DateKey(newest) in GroupCallsByNumberIntended(calls) && g in GroupCallsByNumberIntended(calls)[DateKey(newest)]
    requires newest in calls
    requires forall c :: c in calls ==> c.phoneNumber == newest.phoneNumber
    requires forall c :: c in calls && c != newest ==> c.timestamp < newest.timestamp
    ensures g.smsSent == newest.smsSent
  {
    var date := DateKey(newest);
    IntendedSmsFlagOfNewestCall(calls, date, g);
    LatestCallSummarized(calls, FirstOfGroup, date, g);
    assert CallOf(calls, date, g.phoneNumber, newest);
  }

  /** Two calls from one number on one date, the newer with its SMS sent and the older without. */
  ghost predicate NewerCallTexted(older: CallRecord, newer: CallRecord) {
    older.phoneNumber == newer.phoneNumber && DateKey(older) == DateKey(newer) &&
    older.timestamp < newer.timestamp && newer.smsSent && !older.smsSent
  }

  lemma TwoCalls(older: CallRecord, newer: CallRecord)
    requires NewerCallTexted(older, newer)
    ensures older in [older, newer] && newer in [older, newer]
    ensures forall c :: c in [older, newer] ==> c.phoneNumber == older.phoneNumber && DateKey(c) == DateKey(older)
    ensures forall c :: c in [older, newer] && c != older ==> older.timestamp < c.timestamp
    ensures forall c :: c in [older, newer] && c != newer ==> c.timestamp < newer.timestamp
  {
  }

  /** As written, the summary of such two calls reports no SMS although the latest call had one. */
  lemma SmsFlagCounterexample(older: CallRecord, newer: CallRecord)
    requires NewerCallTexted(older, newer)
    ensures DateKey(older) in GroupCallsByNumber([older, newer])
    ensures GroupCallsByNumber([older, newer])[DateKey(older)] != []
    ensures forall g :: g in GroupCallsByNumber([older, newer])[DateKey(older)] ==> !g.smsSent
  {
    TwoCalls(older, newer);
    FlagOfStrictlyOldest([older, newer], older);
  }

  /** As intended, the same two calls are summarised with the SMS of the latest call. */
  lemma IntendedSmsFlagExample(older: CallRecord, newer: CallRecord)
    requires NewerCallTexted(older, newer)
    ensures DateKey(newer) in GroupCallsByNumberIntended([older, newer])
    ensures GroupCallsByNumberIntended([older, newer])[DateKey(newer)] != []
    ensures forall g :: g in GroupCallsByNumberIntended([older, newer])[DateKey(newer)] ==> g.smsSent
  {
    TwoCalls(older, newer);
    FlagOfStrictlyNewest([older, newer], newer);
  }

  /** The call counts of the listed dates, added up. */
  function TotalCount(groups: map<string, seq<GroupedCall>>, dates: seq<string>): int
    requires forall d :: d in dates ==> d in groups
  {
    if dates == [] then 0 else SumOf(groups[dates[0]], CallCount) + TotalCount(groups, dates[1..])
  }

  lemma {:induction false} SummariesCount(calls: seq<CallRecord>, phones: seq<string>, source: SmsFlagSource)
    requires AllCalled(calls, phones)
    ensures SumOf(SummarizeAll(calls, phones, source), CallCount) == GroupSizes(calls, Phone, phones)
  {
    if phones != [] {
      var tail := phones[1..];
      assert forall p :: p in tail ==> p in phones;
      SummariesCount(calls, tail, source);
      assert SummarizeAll(calls, phones, source)[1..] == SummarizeAll(calls, tail, source);
    }
  }

  /** The call counts of one date add up to the number of calls that date. */
  lemma DayCountsAddUp(callsForDate: seq<CallRecord>, source: SmsFlagSource)
    ensures SumOf(GroupsOfDay(callsForDate, source), CallCount) == |callsForDate|
  {
    var phones := PhonesOf(callsForDate);
    var summaries := SummarizeAll(callsForDate, phones, source);
    SumOfPermutation(SortByDesc(summaries, LastCallTime), summaries, CallCount);
    SummariesCount(callsForDate, phones, source);
    GroupSizesPartition(callsForDate, Phone, phones);
  }

  lemma {:induction false} TotalCountIsGroupSizes(calls: seq<CallRecord>, source: SmsFlagSource, dates: seq<string>)
    requires forall d :: d in dates ==> d in GroupCalls(calls, source)
    ensures TotalCount(GroupCalls(calls, source), dates) == GroupSizes(SortByDesc(calls, CallDao.Timestamp), DateKey, dates)
  {
    if dates != [] {
      DayCountsAddUp(CallsOn(calls, dates[0]), source);
      TotalCountIsGroupSizes(calls, source, dates[1..]);
    }
  }

  /** The listed dates of the calls are exactly the dates of the grouping. */
  lemma DatesOfCalls(calls: seq<CallRecord>, source: SmsFlagSource)
    ensures forall d :: d in Dedup(KeysOf(calls, DateKey)) <==> d in GroupCalls(calls, source)
  {
    forall d ensures d in Dedup(KeysOf(calls, DateKey)) <==> d in GroupCalls(calls, source) {
      GroupDates(calls, source, d);
    }
  }

  /** Every call is counted exactly once: the counts over all dates add up to the number of calls. */
  lemma CountsAddUpToCalls(calls: seq<CallRecord>, source: SmsFlagSource)
    ensures var dates := Dedup(KeysOf(calls, DateKey));
            (forall d :: d in dates <==> d in GroupCalls(calls, source)) &&
            TotalCount(GroupCalls(calls, source), dates) == |calls|
  {
    var dates := Dedup(KeysOf(calls, DateKey));
    var sorted := SortByDesc(calls, CallDao.Timestamp);
    DatesOfCalls(calls, source);
    TotalCountIsGroupSizes(calls, source, dates);
    forall c | c in sorted ensures DateKey(c) in dates {
      assert c in multiset(calls);
      assert DateKey(c) in KeysOf(calls, DateKey);
    }
    GroupSizesPartition(sorted, DateKey, dates);
  }
}

=== FILE: call_view_model.dfy ===
/**
 * The schedule screen's view model: the selected day (a timestamp and its
 * date string, always changed together) and the last capacity error.
 * Repository calls are not modelled; what they report is passed in, and
 * the requests the view model sends are returned.
 */
module ViewModel {
  import opened Options
  import opened Records
  import opened Days
  import Booking

  /** What a repository call reports: success, or a failure with its optional message. */
  datatype Outcome = Success | Failure(message: Option<string>)

  /** The arguments a capacity change is sent to the repository with. */
  datatype CapacityRequest = CapacityRequest(slotTime: string, newCapacity: int, date: string)

  /** `resetSlotCapacity` validates against this fixed capacity, not the stored default. */
  const ResetCapacity: int := 2

  /** The error shown after a repository call: its message on failure, nothing on success. */
  function ErrorAfter(outcome: Outcome): (error: Option<string>)
    ensures outcome.Success? ==> error == None
    ensures outcome.Failure? ==> error == outcome.message
  {
    if outcome.Success? then None else outcome.message
  }

  class CallViewModel {
    var selectedDate: string
    var selectedDateTimestamp: int
    var capacityError: Option<string>

    /** The date string is always the rendering of the selected timestamp. */
    ghost predicate Valid()
      reads this
    {
      selectedDate == FormatDate(selectedDateTimestamp)
    }

    /** A new view model shows the next working day after `now`, with no error. */
    constructor (now: int)
      ensures Valid()
      ensures DayOf(selectedDateTimestamp) == Booking.NextWorkingDay(DayOf(now))
      ensures capacityError == None
    {
      selectedDate := "";
      selectedDateTimestamp := 0;
      capacityError := None;
      new;
      GoToTomorrow(now);
    }

    /** `goToTomorrow`: the next working day after `now`, at the same time of day. */
    method GoToTomorrow(now: int)
      modifies this
      ensures Valid()
      ensures DayOf(selectedDateTimestamp) == Booking.NextWorkingDay(DayOf(now))
      ensures selectedDateTimestamp % MillisPerDay == now % MillisPerDay
      ensures capacityError == old(capacityError)
    {
      var timestamp, date := Booking.GetNextWorkingDay(now);
      selectedDateTimestamp := timestamp;
      selectedDate := date;
    }

    /** `goToToday`: the current moment. */
    method GoToToday(now: int)
      modifies this
      ensures Valid()
      ensures selectedDateTimestamp == now
      ensures capacityError == old(capacityError)
    {
      selectedDateTimestamp := now;
      selectedDate := FormatDate(now);
    }

    /** `nextDay`: one calendar day later, Sundays included. */
    method NextDay()
      modifies this
      ensures Valid()
      ensures selectedDateTimestamp == old(selectedDateTimestamp) + MillisPerDay
      ensures DayOf(selectedDateTimestamp) == DayOf(old(selectedDateTimestamp)) + 1
      ensures capacityError == old(capacityError)
    {
      NextCalendarDay(selectedDateTimestamp);
      var timestamp := selectedDateTimestamp + MillisPerDay;
      selectedDateTimestamp := timestamp;
      selectedDate := FormatDate(timestamp);
    }

    /** `previousDay`: one calendar day earlier, so it undoes `nextDay`. */
    method PreviousDay()
      modifies this
      ensures Valid()
      ensures selectedDateTimestamp == old(selectedDateTimestamp) - MillisPerDay
      ensures DayOf(selectedDateTimestamp) == DayOf(old(selectedDateTimestamp)) - 1
      ensures capacityError == old(capacityError)
    {
      PreviousCalendarDay(selectedDateTimestamp);
      var timestamp := selectedDateTimestamp - MillisPerDay;
      selectedDateTimestamp := timestamp;
      selectedDate := FormatDate(timestamp);
    }

    /**
     * `updateSlotCapacity`: sends the change for the selected date; `outcome`
     * is the repository's answer, and the error becomes its failure message.
     */
    method UpdateSlotCapacity(slotTime: string, newCapacity: int, outcome: Outcome) returns (request: CapacityRequest)
      modifies this
      ensures request == CapacityRequest(slotTime, newCapacity, old(selectedDate))
      ensures capacityError == ErrorAfter(outcome)
      ensures selectedDate == old(selectedDate) && selectedDateTimestamp == old(selectedDateTimestamp)
    {
      request := CapacityRequest(slotTime, newCapacity, selectedDate);
      if outcome.Failure? {
        capacityError := outcome.message;
      } else {
        capacityError := None;
      }
    }

    /**
     * `resetSlotCapacity`: validates a change to capacity 2 for the selected
     * date; only if the validation succeeds is the reset issued.
     */
    method ResetSlotCapacity(slotTime: string, validation: Outcome) returns (request: CapacityRequest, resetIssued: bool)
      modifies this
      ensures request == CapacityRequest(slotTime, ResetCapacity, old(selectedDate))
      ensures resetIssued <==> validation.Success?
      ensures capacityError == ErrorAfter(validation)
      ensures selectedDate == old(selectedDate) && selectedDateTimestamp == old(selectedDateTimestamp)
    {
      request := CapacityRequest(slotTime, ResetCapacity, selectedDate);
      if validation.Failure? {
        capacityError := validation.message;
        resetIssued := false;
      } else {
        resetIssued := true;
        capacityError := None;
      }
    }

    /** `clearCapacityError`. */
    method ClearCapacityError()
      modifies this
      ensures capacityError == None
      ensures selectedDate == old(selectedDate) && selectedDateTimestamp == old(selectedDateTimestamp)
    {
      capacityError := None;
    }

    /**
     * `appointmentSlots`: nothing while no date is selected, otherwise the
     * slots the repository reports for the selected date. Once the view
     * model is constructed a date is always selected.
     */
    method AppointmentSlots(repositorySlots: seq<AppointmentSlot>) returns (slots: seq<AppointmentSlot>)
      ensures selectedDate == [] ==> slots == []
      ensures selectedDate != [] ==> slots == repositorySlots
      ensures Valid() ==> slots == repositorySlots
    {
      if selectedDate == [] {
        slots := [];
      } else {
        slots := repositorySlots;
      }
    }
  }
}

=== FILE: capacity_input.dfy ===
/**
 * The capacity dialog's Save button: the typed text is parsed with
 * `toIntOrNull`, and only a positive number is passed on as the slot's
 * new capacity; anything else keeps the dialog open.
 */
module CapacityInput {
  import opened Options
  import opened Decimal
  import opened KotlinInt

  /** The capacity handed to `updateSlotCapacity`, or `None` when Save does nothing. */
  function AcceptedCapacity(input: string): (r: Option<int>)
    ensures r.Some? ==> ToIntOrNull(input) == r && 1 <= r.value <= IntMax
    ensures r.None? ==> ToIntOrNull(input).None? || ToIntOrNull(input).value <= 0
  {
    var parsed := ToIntOrNull(input);
    if parsed.Some? && parsed.value > 0 then parsed else None
  }

  /** Every positive number that fits an `Int`, typed in plain digits, is accepted as itself. */
  lemma AcceptsTypedPositive(n: nat)
    ensures 1 <= n <= IntMax ==> AcceptedCapacity(Digits(n)) == Some(n)
    ensures n > IntMax ==> AcceptedCapacity(Digits(n)) == None
  {
    ParseRendering(n);
  }

  /** Empty text, zero and negative numbers are never accepted. */
  lemma RejectsNonPositive(n: nat)
    ensures AcceptedCapacity([]) == None
    ensures AcceptedCapacity(Digits(0)) == None
    ensures AcceptedCapacity(['-'] + Digits(n)) == None
  {
    ParseRendering(0);
    ParseNegativeRendering(n);
  }
}

=== FILE: days.dfy ===
/**
 * The calendar as the app uses it. A timestamp is milliseconds since the
 * epoch; its day is the day index in a zone without daylight saving. Day 0
 * (1 January 1970) is a Thursday; weekdays are numbered as
 * `java.util.Calendar` numbers them, Sunday = 1 to Saturday = 7.
 */
module Days {
  import opened Decimal

  const MillisPerDay: int := 86_400_000

  const Sunday: int := 1
  const Monday: int := 2
  const Saturday: int := 7

  function DayOf(timestamp: int): int {
    timestamp / MillisPerDay
  }

  /** `calendar.add(Calendar.DAY_OF_MONTH, 1)`: the next day, same time of day. */
  lemma NextCalendarDay(timestamp: int)
    ensures DayOf(timestamp + MillisPerDay) == DayOf(timestamp) + 1
    ensures (timestamp + MillisPerDay) % MillisPerDay == timestamp % MillisPerDay
  {
  }

  /** `calendar.add(Calendar.DAY_OF_MONTH, -1)`: the previous day, same time of day. */
  lemma PreviousCalendarDay(timestamp: int)
    ensures DayOf(timestamp - MillisPerDay) == DayOf(timestamp) - 1
    ensures (timestamp - MillisPerDay) % MillisPerDay == timestamp % MillisPerDay
  {
  }

  /** `Calendar.DAY_OF_WEEK` of a day index. */
  function DayOfWeek(day: int): (w: int)
    ensures Sunday <= w <= Saturday
  {
    (day + 4) % 7 + 1
  }

  predicate IsSunday(day: int) {
    DayOfWeek(day) == Sunday
  }

  /** Weekdays advance by one, Saturday wrapping round to Sunday. */
  lemma WeekdayAdvances(day: int)
    ensures DayOfWeek(day + 1) == if DayOfWeek(day) == Saturday then Sunday else DayOfWeek(day) + 1
  {
  }

  /**
   * The date string of a day index. The app renders "dd MMM yyyy"; the model
   * keeps what the app relies on: a non-empty string that identifies the day.
   */
  function FormatDay(day: int): (s: string)
    ensures IsDayString(s) && DayIndexOf(s) == day
  {
    if day < 0 then
      var s := ['-'] + Digits(-day);
      assert s[1..] == Digits(-day);
      ValueOfDigits(-day);
      s
    else
      ValueOfDigits(day);
      Digits(day)
  }

  /** The shape of a date string: digits, with a leading `-` before the epoch. */
  predicate IsDayString(s: string) {
    if |s| >= 1 && s[0] == '-' then |s| >= 2 && AllDigits(s[1..]) else |s| >= 1 && AllDigits(s)
  }

  /** Reads a date string back to its day index. */
  function DayIndexOf(s: string): int
    requires IsDayString(s)
  {
    if s[0] == '-' then -(Value(s[1..]) as int) else Value(s)
  }

  /** Two days have the same date string only if they are the same day. */
  lemma FormatDayInjective(a: int, b: int)
    ensures FormatDay(a) == FormatDay(b) ==> a == b
  {
  }

  /** `getDateString`: the date string of a timestamp. */
  function FormatDate(timestamp: int): (s: string)
    ensures IsDayString(s) && DayIndexOf(s) == DayOf(timestamp)
  {
    FormatDay(DayOf(timestamp))
  }

  /** Two timestamps share a date string exactly when they fall on the same day. */
  lemma SameDateIffSameDay(t1: int, t2: int)
    ensures FormatDate(t1) == FormatDate(t2) <==> DayOf(t1) == DayOf(t2)
  {
    FormatDayInjective(DayOf(t1), DayOf(t2));
  }

  const DayNames: seq<string> :=
    ["Sunday", "Monday", "Tuesday", "Wednesday", "Thursday", "Friday", "Saturday"]

  /** The "EEEE" pattern: the name of the weekday of a timestamp. */
  function DayName(timestamp: int): (name: string)
    ensures name in DayNames
    ensures name == "Sunday" <==> IsSunday(DayOf(timestamp))
  {
    DayNames[DayOfWeek(DayOf(timestamp)) - 1]
  }

  /** Two timestamps get the same day name exactly when they fall on the same weekday. */
  lemma DayNameIdentifiesWeekday(t1: int, t2: int)
    ensures DayName(t1) == DayName(t2) <==> DayOfWeek(DayOf(t1)) == DayOfWeek(DayOf(t2))
  {
    var w1, w2 := DayOfWeek(DayOf(t1)), DayOfWeek(DayOf(t2));
    if w1 != w2 {
      // the seven names are pairwise distinct
      assert DayNames[w1 - 1] != DayNames[w2 - 1];
    }
  }
}

=== FILE: decimal.dfy ===
/**
 * Decimal digit strings. Used for the rendering of day indices and for the
 * parsing of the capacity typed into the edit dialog.
 */
module Decimal {

  predicate IsDigit(c: char) {
    '0' <= c <= '9'
  }

  predicate AllDigits(s: string) {
    forall i :: 0 <= i < |s| ==> IsDigit(s[i])
  }

  function DigitChar(d: nat): (c: char)
    requires d < 10
    ensures IsDigit(c)
  {
    ((('0' as int) + d) as char)
  }

  function DigitValue(c: char): (d: nat)
    requires IsDigit(c)
    ensures d < 10
  {
    (c as int) - ('0' as int)
  }

  /** The shortest decimal rendering of `n`, most significant digit first. */
  function Digits(n: nat): (s: string)
    ensures 1 <= |s| && AllDigits(s)
  {
    if n < 10 then [DigitChar(n)] else Digits(n / 10) + [DigitChar(n % 10)]
  }

  /** The number a string of decimal digits denotes (leading zeros allowed). */
  function Value(s: string): nat
    requires AllDigits(s)
  {
    if s == [] then 0 else 10 * Value(s[..|s| - 1]) + DigitValue(s[|s| - 1])
  }

  /** Reading back a rendering gives the number that was rendered. */
  lemma {:induction false} ValueOfDigits(n: nat)
    ensures Value(Digits(n)) == n
  {
    var s := Digits(n);
    if n >= 10 {
      ValueOfDigits(n / 10);
      assert s[..|s| - 1] == Digits(n / 10);
    }
  }
}

=== FILE: kotlin_int.dfy ===
/**
 * Kotlin's 32-bit `Int` as the app uses it: wrap-around arithmetic,
 * `kotlin.math.abs`, the truncating remainder `%`, `String.hashCode` and
 * `String.toIntOrNull`.
 */
module KotlinInt {
  import opened Options
  import opened Decimal

  const IntMin: int := -0x8000_0000
  const IntMax: int := 0x7FFF_FFFF
  const Modulus: int := 0x1_0000_0000

  predicate IsInt(x: int) {
    IntMin <= x <= IntMax
  }

  /** Two's-complement wrap-around of a 32-bit result. */
  function Wrap(x: int): (r: int)
    ensures IsInt(r)
    ensures r % Modulus == x % Modulus
    ensures IsInt(x) ==> r == x
  {
    var m := x % Modulus;
    if m > IntMax then m - Modulus else m
  }

  /** `kotlin.math.abs(Int)`: the negation wraps, so `abs(Int.MIN_VALUE)` is `Int.MIN_VALUE`. */
  function Abs(x: int): (r: int)
    requires IsInt(x)
    ensures IsInt(r)
    ensures x != IntMin ==> r >= 0 && (r == x || r == -x)
    ensures x == IntMin ==> r == IntMin
  {
    Wrap(if x < 0 then -x else x)
  }

  /** Kotlin's `a % b`: the remainder takes the sign of the dividend. */
  function Rem(a: int, b: int): (r: int)
    requires b > 0
    ensures a >= 0 ==> 0 <= r < b
    ensures a < 0 ==> -b < r <= 0
    ensures (a - r) % b == 0
  {
    if a >= 0 then
      assert a - a % b == (a / b) * b;
      MultipleRem(a / b, b);
      a % b
    else
      assert a + (-a) % b == (-((-a) / b)) * b;
      MultipleRem(-((-a) / b), b);
      -((-a) % b)
  }

  /** A multiple of `b` leaves no remainder. */
  lemma MultipleRem(k: int, b: int)
    requires b > 0
    ensures (k * b) % b == 0
  {
    var q, m := (k * b) / b, (k * b) % b;
    assert (k - q) * b == m;
    // a non-zero multiple of `b` cannot lie in [0, b)
    if k - q >= 1 {
      assert false;
    } else if k - q <= -1 {
      assert false;
    }
  }

  /** `String.hashCode`, folding `h = 31 * h + c` over the characters from `h`. */
  function HashFrom(h: int, s: string): (r: int)
    requires IsInt(h)
    ensures IsInt(r)
    decreases |s|
  {
    if s == [] then h else HashFrom(Wrap(31 * h + s[0] as int), s[1..])
  }

  /**
   * The polynomial `String.hashCode` is documented as,
   * `s[0]*31^(n-1) + s[1]*31^(n-2) + ... + s[n-1]` in unbounded integers,
   * written in Horner form from the last character.
   */
  function HashPolynomial(s: string): int
    decreases |s|
  {
    if s == [] then 0 else 31 * HashPolynomial(s[..|s| - 1]) + s[|s| - 1] as int
  }

  /** Equal residues stay equal after the same multiplication and addition. */
  lemma CongruentStep(x: int, y: int, p: int, q: int)
    requires x % Modulus == y % Modulus
    ensures (x * p + q) % Modulus == (y * p + q) % Modulus
  {
    var k := x / Modulus - y / Modulus;
    assert x - y == k * Modulus;
    assert (x * p + q) - (y * p + q) == (k * p) * Modulus by {
      assert (x - y) * p == x * p - y * p;
    }
    ShiftByMultiple(y * p + q, k * p);
  }

  /** Adding a multiple of 2^32 keeps the residue. */
  lemma ShiftByMultiple(x: int, k: int)
    ensures (x + k * Modulus) % Modulus == x % Modulus
  {
    var q, m := x / Modulus, x % Modulus;
    assert x + k * Modulus == (q + k) * Modulus + m;
    var q', m' := (x + k * Modulus) / Modulus, (x + k * Modulus) % Modulus;
    assert (q' - q - k) * Modulus == m - m';
    // a non-zero multiple of 2^32 cannot lie strictly between -2^32 and 2^32
    if q' - q - k >= 1 {
      assert false;
    } else if q' - q - k <= -1 {
      assert false;
    }
  }

  /** Appending a character folds it into the hash of the prefix. */
  lemma {:induction false} HashFromSnoc(h: int, s: string, c: char)
    requires IsInt(h)
    ensures HashFrom(h, s + [c]) == HashFrom(HashFrom(h, s), [c])
    decreases |s|
  {
    if s != [] {
      assert (s + [c])[1..] == s[1..] + [c];
      HashFromSnoc(Wrap(31 * h + s[0] as int), s[1..], c);
    }
  }

  /** The wrapped fold agrees with the polynomial modulo 2^32. */
  lemma {:induction false} HashFromPolynomial(s: string)
    ensures HashFrom(0, s) % Modulus == HashPolynomial(s) % Modulus
    decreases |s|
  {
    if s != [] {
      var init, c := s[..|s| - 1], s[|s| - 1];
      assert s == init + [c];
      HashFromPolynomial(init);
      HashFromSnoc(0, init, c);
      var h := HashFrom(0, init);
      assert HashFrom(h, [c]) == Wrap(31 * h + c as int);
      CongruentStep(h, HashPolynomial(init), 31, c as int);
      assert (h * 31 + c as int) % Modulus == (31 * h + c as int) % Modulus;
    }
  }

  /** `String.hashCode`: the 32-bit result whose residue is that of the documented polynomial. */
  function HashCode(s: string): (r: int)
    ensures IsInt(r)
    ensures r % Modulus == HashPolynomial(s) % Modulus
  {
    HashFromPolynomial(s);
    HashFrom(0, s)
  }

  /**
   * `String.toIntOrNull()` in radix 10: an optional leading `+` or `-`, at
   * least one digit and nothing else, and a value that fits an `Int`.
   */
  function ToIntOrNull(s: string): (r: Option<int>)
    ensures r.Some? <==> IsNumeral(s) && IsInt(NumeralValue(s))
    ensures r.Some? ==> r.value == NumeralValue(s)
  {
    if s == [] then None
    else if s[0] == '-' || s[0] == '+' then
      var digits := s[1..];
      if digits == [] || !AllDigits(digits) then None
      else
        var v: int := if s[0] == '-' then -(Value(digits) as int) else Value(digits);
        if IsInt(v) then Some(v) else None
    else if AllDigits(s) && Value(s) <= IntMax then Some(Value(s))
    else None
  }

  /** Text of the number form: an optional `+` or `-`, then one or more decimal digits. */
  predicate IsNumeral(s: string) {
    && |s| >= 1
    && (IsDigit(s[0]) || ((s[0] == '+' || s[0] == '-') && |s| >= 2))
    && forall k :: 1 <= k < |s| ==> IsDigit(s[k])
  }

  /** The signed value a numeral denotes. */
  function NumeralValue(s: string): int
    requires IsNumeral(s)
  {
    var magnitude: int := if IsDigit(s[0]) then Value(s) else Value(s[1..]);
    if s[0] == '-' then -magnitude else magnitude
  }

  /** Stray characters, a bare sign and a leading blank are all refused. */
  lemma RejectsMalformed()
    ensures ToIntOrNull("") == None
    ensures ToIntOrNull("+") == None && ToIntOrNull("-") == None
    ensures ToIntOrNull("12a") == None
    ensures ToIntOrNull(" 5") == None
    ensures ToIntOrNull("+7") == Some(7)
  {
    assert !IsNumeral("12a") by { assert !IsDigit("12a"[2]); }
    assert "+7"[1..] == "7";
  }

  /** A rendered number parses back to itself exactly when it fits an `Int`. */
  lemma ParseRendering(n: nat)
    ensures n <= IntMax ==> ToIntOrNull(Digits(n)) == Some(n)
    ensures n > IntMax ==> ToIntOrNull(Digits(n)) == None
  {
    ValueOfDigits(n);
  }

  /** A rendered number with a minus sign parses back to its negation when that fits an `Int`. */
  lemma ParseNegativeRendering(n: nat)
    ensures n <= -IntMin ==> ToIntOrNull(['-'] + Digits(n)) == Some(-(n as int))
    ensures n > -IntMin ==> ToIntOrNull(['-'] + Digits(n)) == None
  {
    var s := ['-'] + Digits(n);
    assert s[1..] == Digits(n);
    ValueOfDigits(n);
  }
}

=== FILE: options.dfy ===
/** Kotlin's nullable values (`T?`) as an explicit option type. */
module Options {
  datatype Option<T> = None | Some(value: T)
}

=== FILE: records.dfy ===
/**
 * The records of the data layer: a row of `call_records`, the per-number
 * summary shown in the call history, a schedule slot with its occupancy,
 * and a row of `slot_configurations`.
 */
module Records {
  import opened Options

  /** A row of `call_records`. An `id` of 0 asks the table to generate one. */
  datatype CallRecord = CallRecord(
    id: int,
    phoneNumber: string,
    timestamp: int,
    smsSent: bool,
    appointmentDate: Option<string>,
    appointmentSlot: Option<string>)

  /** A record built with only the required arguments: every defaulted field keeps its default. */
  function NewCallRecord(phoneNumber: string, timestamp: int, smsSent: bool): (r: CallRecord)
    ensures r.id == 0
    ensures r.appointmentDate == None && r.appointmentSlot == None
    ensures r.phoneNumber == phoneNumber && r.timestamp == timestamp && r.smsSent == smsSent
  {
    CallRecord(0, phoneNumber, timestamp, smsSent, None, None)
  }

  /** One caller's calls on one day, as the call history shows them. */
  datatype GroupedCall = GroupedCall(
    phoneNumber: string,
    callCount: int,
    lastCallTime: int,
    smsSent: bool,
    firstCallId: int)

  /** The capacity a slot gets when none is given. */
  const DefaultSlotCapacity: int := 5

  /** A schedule slot: its label, the numbers booked in it, its capacity and its occupancy. */
  datatype AppointmentSlot = AppointmentSlot(
    slotTime: string,
    phoneNumbers: seq<string>,
    capacity: int,
    count: int)
  {
    /** No place is left: a slot with room is never full, and one without capacity always is. */
    predicate IsFull()
      ensures count < capacity ==> !IsFull()
      ensures 0 <= count && capacity <= 0 ==> IsFull()
    {
      count >= capacity
    }

    /** Nobody is booked: an empty slot with capacity at least 1 is not full. */
    predicate IsEmpty()
      ensures IsEmpty() && capacity >= 1 ==> !IsFull()
    {
      count == 0
    }
  }

  /**
   * A slot built without an explicit occupancy: the occupancy is the number
   * of listed numbers, and the capacity is the given one or the default.
   */
  function NewAppointmentSlot(slotTime: string, phoneNumbers: seq<string>, capacity: Option<int>): (s: AppointmentSlot)
    ensures s.slotTime == slotTime && s.phoneNumbers == phoneNumbers
    ensures s.count == |phoneNumbers|
    ensures capacity.None? ==> s.capacity == DefaultSlotCapacity
    ensures capacity.Some? ==> s.capacity == capacity.value
    ensures s.IsEmpty() <==> phoneNumbers == []
    ensures s.IsFull() <==> |phoneNumbers| >= s.capacity
  {
    AppointmentSlot(slotTime, phoneNumbers, if capacity.Some? then capacity.value else DefaultSlotCapacity, |phoneNumbers|)
  }

  /**
   * A slot is both full and empty only when it is empty and has no capacity
   * at all; with a capacity of at least one the two never hold together.
   */
  lemma FullAndEmpty(s: AppointmentSlot)
    ensures s.IsFull() && s.IsEmpty() <==> s.count == 0 && s.capacity <= 0
    ensures s.capacity >= 1 ==> !(s.IsFull() && s.IsEmpty())
  {
  }

  /** A row of `slot_configurations`: the capacity configured for one slot label. */
  datatype SlotConfiguration = SlotConfiguration(slotTime: string, capacity: int)
}

=== FILE: seqs.dfy ===
/**
 * The list operations the app's Kotlin chains are built from: `filter`,
 * `sortedByDescending`, `groupBy` keys, `distinct` and sums.
 */
module Seqs {

  /** `filter`: the elements of `s` that `keep` accepts, in their order. */
  function Filter<T(==,!new)>(s: seq<T>, keep: T -> bool): (r: seq<T>)
    ensures |r| <= |s|
    ensures forall x :: x in r <==> x in s && keep(x)
    ensures forall x :: multiset(r)[x] == if keep(x) then multiset(s)[x] else 0
  {
    if s == [] then []
    else
      assert s == [s[0]] + s[1..];
      (if keep(s[0]) then [s[0]] else []) + Filter(s[1..], keep)
  }

  /** Filtering with a test every element passes changes nothing. */
  lemma {:induction false} FilterKeepsAll<T(!new)>(s: seq<T>, keep: T -> bool)
    requires forall x :: x in s ==> keep(x)
    ensures Filter(s, keep) == s
  {
    if s != [] {
      FilterKeepsAll(s[1..], keep);
    }
  }

  /** The test "has key `k`", one value per key so that every use of it is the same function. */
  function HasKey<T, K(==,!new)>(key: T -> K, k: K): T -> bool {
    x => key(x) == k
  }

  predicate NoDup<T(==,!new)>(s: seq<T>) {
    forall i, j :: 0 <= i < j < |s| ==> s[i] != s[j]
  }

  /** No two elements share a key: the key is a primary key of the list. */
  ghost predicate DistinctKeys<T, K>(s: seq<T>, key: T -> K) {
    forall i, j :: 0 <= i < j < |s| ==> key(s[i]) != key(s[j])
  }

  /** Removing elements keeps keys distinct. */
  lemma {:induction false} FilterKeepsDistinctKeys<T(!new), K>(s: seq<T>, keep: T -> bool, key: T -> K)
    requires DistinctKeys(s, key)
    ensures DistinctKeys(Filter(s, keep), key)
  {
    if s != [] {
      FilterKeepsDistinctKeys(s[1..], keep, key);
      var rest := Filter(s[1..], keep);
      forall y | y in rest ensures key(s[0]) != key(y) {
        var j :| 0 <= j < |s[1..]| && s[1..][j] == y;
        assert s[j + 1] == y;
      }
      if keep(s[0]) {
        var r := Filter(s, keep);
        assert r == [s[0]] + rest;
        forall i, j | 0 <= i < j < |r| ensures key(r[i]) != key(r[j]) {
          assert r[j] == rest[j - 1];
          if i > 0 {
            assert r[i] == rest[i - 1];
          } else {
            assert rest[j - 1] in rest;
          }
        }
      }
    }
  }

  ghost predicate SortedDesc<T>(s: seq<T>, key: T -> int) {
    forall i, j :: 0 <= i < j < |s| ==> key(s[i]) >= key(s[j])
  }

  lemma SortedAt<T>(s: seq<T>, key: T -> int, i: nat, k: nat)
    requires SortedDesc(s, key)
    requires i <= k < |s|
    ensures key(s[i]) >= key(s[k])
  {
  }

  /** Inserts `x` before the first element whose key is not larger, so equal keys keep their order. */
  function InsertDesc<T(==,!new)>(x: T, s: seq<T>, key: T -> int): (r: seq<T>)
    requires SortedDesc(s, key)
    ensures SortedDesc(r, key)
    ensures multiset(r) == multiset(s) + multiset{x}
  {
    if s == [] || key(s[0]) <= key(x) then [x] + s
    else
      assert s == [s[0]] + s[1..];
      var rest := InsertDesc(x, s[1..], key);
      assert forall j :: 0 <= j < |rest| ==> key(s[0]) >= key(rest[j]) by {
        forall j | 0 <= j < |rest| ensures key(s[0]) >= key(rest[j]) {
          assert rest[j] in multiset(rest);
          if rest[j] != x {
            assert rest[j] in multiset(s[1..]);
            var k :| 0 <= k < |s[1..]| && s[1..][k] == rest[j];
            assert s[k + 1] == rest[j];
          }
        }
      }
      [s[0]] + rest
  }

  /** `sortedByDescending`: a stable sort, largest key first. */
  function SortByDesc<T(==,!new)>(s: seq<T>, key: T -> int): (r: seq<T>)
    ensures SortedDesc(r, key)
    ensures multiset(r) == multiset(s)
    ensures |r| == |s|
  {
    if s == [] then []
    else
      assert s == [s[0]] + s[1..];
      var r := InsertDesc(s[0], SortByDesc(s[1..], key), key);
      assert |r| == |multiset(r)|;
      r
  }

  /** A sub-list of a sorted list is sorted. */
  lemma {:induction false} FilterKeepsSorted<T(!new)>(s: seq<T>, keep: T -> bool, key: T -> int)
    requires SortedDesc(s, key)
    ensures SortedDesc(Filter(s, keep), key)
  {
    if s != [] {
      FilterKeepsSorted(s[1..], keep, key);
      var rest := Filter(s[1..], keep);
      forall y | y in rest ensures key(s[0]) >= key(y) {
        var j :| 0 <= j < |s[1..]| && s[1..][j] == y;
        assert s[j + 1] == y;
      }
    }
  }

  /** The key of every element, in order. */
  function KeysOf<T(!new), K(!new)>(s: seq<T>, key: T -> K): (r: seq<K>)
    ensures |r| == |s|
    ensures forall i :: 0 <= i < |s| ==> r[i] == key(s[i])
    ensures forall k :: k in r <==> exists x :: x in s && key(x) == k
  {
    seq(|s|, i requires 0 <= i < |s| => key(s[i]))
  }

  /** `distinct`: the first occurrence of every value, in order. */
  function Dedup<K(==,!new)>(s: seq<K>): (r: seq<K>)
    ensures forall k :: k in r <==> k in s
    ensures NoDup(r)
  {
    if s == [] then []
    else
      var d := Dedup(s[..|s| - 1]);
      assert s == s[..|s| - 1] + [s[|s| - 1]];
      if s[|s| - 1] in d then d else d + [s[|s| - 1]]
  }

  function SumOf<T>(s: seq<T>, f: T -> int): int {
    if s == [] then 0 else f(s[0]) + SumOf(s[1..], f)
  }

  lemma {:induction false} SumOfConcat<T>(a: seq<T>, b: seq<T>, f: T -> int)
    ensures SumOf(a + b, f) == SumOf(a, f) + SumOf(b, f)
  {
    if a != [] {
      assert (a + b)[0] == a[0];
      assert (a + b)[1..] == a[1..] + b;
      SumOfConcat(a[1..], b, f);
    } else {
      assert a + b == b;
    }
  }

  /** Reordering a list does not change its sum. */
  lemma {:induction false} SumOfPermutation<T(!new)>(a: seq<T>, b: seq<T>, f: T -> int)
    requires multiset(a) == multiset(b)
    ensures SumOf(a, f) == SumOf(b, f)
    decreases |a|
  {
    if a == [] {
      assert |b| == |multiset(b)| == 0;
    } else {
      var x := a[0];
      assert x in multiset(a);
      var i :| 0 <= i < |b| && b[i] == x;
      var rest := b[..i] + b[i + 1..];
      assert b == b[..i] + ([x] + b[i + 1..]);
      assert multiset(b) == multiset(b[..i]) + multiset{x} + multiset(b[i + 1..]);
      assert a == [x] + a[1..];
      assert multiset(a) == multiset{x} + multiset(a[1..]);
      assert multiset(rest) == multiset(b[..i]) + multiset(b[i + 1..]);
      assert multiset(a[1..]) == multiset(a) - multiset{x};
      assert multiset(rest) == multiset(b) - multiset{x};
      SumOfPermutation(a[1..], rest, f);
      SumOfConcat(b[..i], [x] + b[i + 1..], f);
      SumOfConcat(b[..i], b[i + 1..], f);
      assert SumOf([x] + b[i + 1..], f) == f(x) + SumOf(b[i + 1..], f) by {
        assert ([x] + b[i + 1..])[1..] == b[i + 1..];
      }
    }
  }

  /** In a list without duplicates every value occurs at most once. */
  lemma {:induction false} NoDupCountsAtMostOne<T(!new)>(s: seq<T>, x: T)
    requires NoDup(s)
    ensures multiset(s)[x] <= 1
  {
    if s != [] {
      assert s == [s[0]] + s[1..];
      assert NoDup(s[1..]) by {
        forall i, j | 0 <= i < j < |s[1..]| ensures s[1..][i] != s[1..][j] {
          assert s[1..][i] == s[i + 1] && s[1..][j] == s[j + 1];
        }
      }
      NoDupCountsAtMostOne(s[1..], x);
      if x == s[0] {
        assert x !in s[1..];
      }
    }
  }

  /** A value at two positions occurs at least twice. */
  lemma RepeatCountsTwice<T>(s: seq<T>, i: nat, j: nat)
    requires i < j < |s| && s[i] == s[j]
    ensures multiset(s)[s[i]] >= 2
  {
    assert s == s[..i] + [s[i]] + s[i + 1..j] + [s[j]] + s[j + 1..];
  }

  /** Reordering a list without duplicates gives a list without duplicates. */
  lemma NoDupPermutation<T(!new)>(a: seq<T>, b: seq<T>)
    requires multiset(a) == multiset(b)
    requires NoDup(a)
    ensures NoDup(b)
  {
    forall i, j | 0 <= i < j < |b| ensures b[i] != b[j] {
      if b[i] == b[j] {
        RepeatCountsTwice(b, i, j);
        NoDupCountsAtMostOne(a, b[i]);
      }
    }
  }

  /** Reordering a list whose elements have distinct keys keeps the keys distinct. */
  lemma DistinctKeysPermutation<T(!new), K>(a: seq<T>, b: seq<T>, key: T -> K)
    requires multiset(a) == multiset(b)
    requires DistinctKeys(a, key)
    ensures DistinctKeys(b, key)
  {
    assert NoDup(a);
    NoDupPermutation(a, b);
    forall i, j | 0 <= i < j < |b| ensures key(b[i]) != key(b[j]) {
      assert b[i] in multiset(a) && b[j] in multiset(a);
      var x :| 0 <= x < |a| && a[x] == b[i];
      var y :| 0 <= y < |a| && a[y] == b[j];
      assert x != y;
    }
  }

  /** Sizes of the groups of `s` for the keys `ks`. */
  function GroupSizes<T(==,!new), K(==,!new)>(s: seq<T>, key: T -> K, ks: seq<K>): int {
    if ks == [] then 0 else |Filter(s, HasKey(key, ks[0]))| + GroupSizes(s, key, ks[1..])
  }

  lemma {:induction false} GroupSizesCons<T(!new), K(!new)>(x: T, t: seq<T>, key: T -> K, ks: seq<K>)
    ensures GroupSizes([x] + t, key, ks) == GroupSizes(t, key, ks) + multiset(ks)[key(x)]
  {
    if ks != [] {
      var s := [x] + t;
      assert s[0] == x && s[1..] == t;
      assert ks == [ks[0]] + ks[1..];
      GroupSizesCons(x, t, key, ks[1..]);
    }
  }

  lemma {:induction false} GroupSizesOfEmpty<T(!new), K(!new)>(key: T -> K, ks: seq<K>)
    ensures GroupSizes([], key, ks) == 0
  {
    if ks != [] {
      GroupSizesOfEmpty(key, ks[1..]);
    }
  }

  /**
   * Grouping partitions: over a duplicate-free list that holds every key
   * of `s`, the group sizes add up to the length of `s`.
   */
  lemma {:induction false} GroupSizesPartition<T(!new), K(!new)>(s: seq<T>, key: T -> K, ks: seq<K>)
    requires NoDup(ks)
    requires forall x :: x in s ==> key(x) in ks
    ensures GroupSizes(s, key, ks) == |s|
  {
    if s == [] {
      GroupSizesOfEmpty(key, ks);
    } else {
      assert s == [s[0]] + s[1..];
      GroupSizesPartition(s[1..], key, ks);
      GroupSizesCons(s[0], s[1..], key, ks);
      NoDupCountsAtMostOne(ks, key(s[0]));
      assert key(s[0]) in multiset(ks);
    }
  }

  /** Lists with the same elements have groups of the same sizes. */
  lemma FilterPermutation<T(!new)>(a: seq<T>, b: seq<T>, keep: T -> bool)
    requires multiset(a) == multiset(b)
    ensures multiset(Filter(a, keep)) == multiset(Filter(b, keep))
    ensures |Filter(a, keep)| == |Filter(b, keep)|
  {
    var fa, fb := Filter(a, keep), Filter(b, keep);
    assert multiset(fa) == multiset(fb);
    assert |fa| == |multiset(fa)| == |multiset(fb)| == |fb|;
  }
}

=== FILE: settings.dfy ===
/**
 * The app's one stored preference, the default slot capacity. The store
 * holds an optional integer; a read falls back to 2 when nothing is
 * stored, and a write outside [1, 20] is refused.
 */
module Settings {
  import opened Options

  const DefaultValue: int := 2
  const MinCapacity: int := 1
  const MaxCapacity: int := 20

  predicate InRange(capacity: int) {
    MinCapacity <= capacity <= MaxCapacity
  }

  /** What a read yields for the stored preference. */
  function CapacityOf(stored: Option<int>): int {
    if stored.Some? then stored.value else DefaultValue
  }

  /** The stored preference after `setDefaultCapacity(capacity)`, and whether it succeeded. */
  function AfterSet(stored: Option<int>, capacity: int): (r: (Option<int>, bool))
    ensures r.1 <==> InRange(capacity)
    ensures r.1 ==> CapacityOf(r.0) == capacity
    ensures !r.1 ==> r.0 == stored
  {
    if !InRange(capacity) then (stored, false) else (Some(capacity), true)
  }

  /** The two writes the app issues. */
  datatype SettingsOp = Set(capacity: int) | Reset

  /** The stored preference after a sequence of writes. */
  function Replay(stored: Option<int>, ops: seq<SettingsOp>): Option<int>
    decreases |ops|
  {
    if ops == [] then stored
    else
      var next := match ops[0]
        case Set(c) => AfterSet(stored, c).0
        case Reset => None;
      Replay(next, ops[1..])
  }

  /** Whatever writes are issued, a read returns a capacity in [1, 20]. */
  lemma {:induction false} ReplayStaysInRange(stored: Option<int>, ops: seq<SettingsOp>)
    requires stored.Some? ==> InRange(stored.value)
    ensures InRange(CapacityOf(Replay(stored, ops)))
    decreases |ops|
  {
    if ops != [] {
      var next := match ops[0]
        case Set(c) => AfterSet(stored, c).0
        case Reset => None;
      ReplayStaysInRange(next, ops[1..]);
    }
  }

  /** A second reset changes nothing, and after a reset a read gives the fallback 2. */
  lemma ResetIdempotent(stored: Option<int>)
    ensures Replay(stored, [Reset, Reset]) == Replay(stored, [Reset])
    ensures CapacityOf(Replay(stored, [Reset])) == DefaultValue
  {
    assert [Reset, Reset][1..] == [Reset];
  }

  /** A set in range is what the next read returns. */
  lemma SetThenGet(stored: Option<int>, capacity: int)
    ensures InRange(capacity) ==> CapacityOf(Replay(stored, [Set(capacity)])) == capacity
    ensures !InRange(capacity) ==> Replay(stored, [Set(capacity)]) == stored
  {
  }

  /** `SettingsManager`: the preference store, edited in place. */
  class SettingsManager {
    var stored: Option<int>

    /** Every value the app itself writes is in range. */
    ghost predicate Valid()
      reads this
    {
      stored.Some? ==> InRange(stored.value)
    }

    /** Opens the store with whatever it already holds. */
    constructor (persisted: Option<int>)
      ensures stored == persisted
    {
      stored := persisted;
    }

    /** `getDefaultCapacity`. */
    method GetDefaultCapacity() returns (capacity: int)
      ensures capacity == CapacityOf(stored)
      ensures stored.None? ==> capacity == DefaultValue
      ensures Valid() ==> InRange(capacity)
    {
      capacity := if stored.Some? then stored.value else DefaultValue;
    }

    /** `setDefaultCapacity`: refuses a capacity outside [1, 20] and leaves the store as it was. */
    method SetDefaultCapacity(capacity: int) returns (ok: bool)
      modifies this
      ensures (stored, ok) == AfterSet(old(stored), capacity)
      ensures ok <==> InRange(capacity)
      ensures old(Valid()) ==> Valid()
    {
      if capacity < MinCapacity || capacity > MaxCapacity {
        return false;
      }
      stored := Some(capacity);
      ok := true;
    }

    /** `resetDefaultCapacity`: removes the stored value. */
    method ResetDefaultCapacity()
      modifies this
      ensures stored == None
      ensures Valid()
    {
      stored := None;
    }
  }
}
